=== FILE: README.md ===
# Song catalogue: list, filter, paginate and aggregate

A model of the core of a song catalogue application. A browser client lists,
filters, sorts, paginates, creates, edits and deletes songs. A REST backend
stores them in a document store and computes catalogue statistics. The model
covers:

- the client store of the song list (a Redux slice): its reducers, written
  as methods of a `SongState` class that update the fields in place;
- the client's pure helpers: the "showing from–to" arithmetic, the
  sort-field and sort-order whitelists, change detection between filter
  objects, and the filter-change and page-change handlers;
- the filter hook over the URL query string: the defaults it reads with,
  the patches each update function writes, and the `null`-deletes merge;
- the zod form schema (trim, then non-empty) and the server's document
  schema (trim, then `required`);
- the HTTP handlers over the song collection, written as methods of a
  `SongCollection` class over the sequence of stored songs;
- the statistics service: totals, distinct counts, and three group-by-count
  lists sorted by count.

Layout, one module per file:

| file | module | models |
|---|---|---|
| types.dfy | `Types` | shared records, `Option`/`Result`, JavaScript values and truthiness |
| js_strings.dfy | `JsStrings` | `String.prototype.trim` with the ECMAScript white-space and line-terminator set |
| sorting.dfy | `Sorting` | a descending sort by an integer key (the store's `$sort: { k: -1 }`) |
| filter_patch.dfy | `FilterPatch` | the key-by-key merge where `undefined`/`null` delete a key |
| song_slice.dfy | `SongSlice` | the client store |
| song_helpers.dfy | `SongHelpers` | the client helpers |
| song_filters.dfy | `SongFilterHook` | the URL-backed filter hook |
| song_schema.dfy | `SongSchema` | the client form schema |
| song_model.dfy | `SongModel` | the server document schema |
| song_service.dfy | `SongService` | catalogue statistics |
| song_controller.dfy | `SongController` | the HTTP handlers |

Inputs that come from outside the code are parameters:

- the identifier and the clock reading the store assigns to a new or
  updated document;
- the failure a store call raises. This is `fault: Option<StoreError>`, an
  error with its `name` and its `message`, and it takes the handler's
  `catch` branch.

JavaScript values are `Value = Undefined | Null | Text | Number`. Numbers
are integers. Strings are `seq<char>`.

What the backend code does, stated plainly:

- The list endpoint filters artist, genre and album by exact, case-sensitive
  equality with the trimmed query parameter, when the parameters are single
  strings. The store trims the filter value because the schema declares
  these paths `trim: true`. It does not match case-insensitive substrings,
  although `apps/backend/src/openapi.ts:275-282` advertises a
  case-insensitive `search` parameter.
- The list endpoint has no free-text search and no relevance ranking.
- The list endpoint does no server-side pagination and no limit clamp. It
  returns every matching song, newest first. `apps/backend/src/openapi.ts:303-322`
  advertises `page` and a `limit` between 1 and 50; the handler reads
  neither.
- `validateSortOrder` is an exact, case-sensitive comparison, so `"ASC"`
  falls back to `"desc"`.
- Create and update failures answer 400 with the store's own message. The
  list, single-song and delete handlers answer 500 with the store's
  message. The statistics handler answers 500 with "Failed to get
  statistics: " followed by the error's string form, its name and message
  joined by ": ". No message is replaced by a generic one.

## Model

| member | source | states |
|---|---|---|
| JsStrings.Trim | apps/frontend/src/utils/songHelpers.ts:87 | trimming never lengthens the text; the result is empty or starts and ends with a non-white-space character, and it is a prefix of the text with its leading white space cut |
| JsStrings.TrimStart | apps/frontend/src/utils/songHelpers.ts:87 | the result is a suffix of the input, everything dropped is white space, and the result does not start with white space |
| JsStrings.TrimEnd | apps/frontend/src/utils/songHelpers.ts:87 | the result is a prefix of the input, everything dropped is white space, and the result does not end with white space |
| JsStrings.TrimIdempotent | apps/frontend/src/schema/song.schema.ts:3-8 | trimming twice is trimming once |
| JsStrings.TrimEmptyIff | apps/frontend/src/utils/songHelpers.ts:87-88 | the trimmed text is empty exactly when every character is white space |
| Types.ErrorText | apps/backend/src/services/songService.ts:65 | the error's string form is its message when it has no name, its name when it has no message, and otherwise the name, ": " and the message |
| Sorting.Insert | apps/backend/src/services/songService.ts:34 | inserting into a list sorted by descending key keeps it sorted, adds exactly the element, and grows the length by one |
| Sorting.SortDesc | apps/backend/src/controllers/songController.ts:35 | the result is sorted by descending key and is a permutation of the input |
| FilterPatch.Merged | apps/frontend/src/store/slices/songSlice.ts:193-200 | a key whose patch value is `undefined` or `null` is deleted; a key with another value takes it; keys the patch does not name keep their values |
| FilterPatch.MergedIdempotent | apps/frontend/src/store/slices/songSlice.ts:193-200 | applying the same patch twice equals applying it once |
| FilterPatch.MergedTwice | apps/frontend/src/store/slices/songSlice.ts:193-200 | applying two patches in turn equals applying their union, the later patch winning |
| FilterPatch.MergedStep | apps/frontend/src/store/slices/songSlice.ts:55-62 | merging one more entry of the patch deletes that key when its value is null or undefined and overwrites it otherwise; no other key changes |
| SongSlice.CeilDiv | apps/frontend/src/store/slices/songSlice.ts:100 | `Math.ceil(a / b)` for a non-zero divisor: the smallest multiple count that covers `a`, and at least one page for a positive total |
| SongSlice.NewestFirst | apps/frontend/src/store/slices/songSlice.ts:89-95 | the new song is put first; the last entry is dropped exactly when pagination is known, its limit is truthy and the list outgrew it; the result is a prefix of the grown list; a positive limit is not exceeded |
| SongSlice.AfterCreate | apps/frontend/src/store/slices/songSlice.ts:91-107 | total grows by one; with a positive limit totalPages is the ceiling of total over limit, and at least one; a zero limit means one page and no next page; hasNextPage and hasPrevPage compare the page with the page bounds |
| SongSlice.FindIndexById | apps/frontend/src/store/slices/songSlice.ts:123-125 | the index of the first song with the identifier, or -1 exactly when none has it |
| SongSlice.ReplaceById | apps/frontend/src/store/slices/songSlice.ts:123-128 | the first song with the payload's identifier is replaced and nothing else changes; a list without that identifier is unchanged |
| SongSlice.WithoutId | apps/frontend/src/store/slices/songSlice.ts:142 | exactly the songs whose identifier differs are kept |
| SongSlice.WithoutIdAppend | apps/frontend/src/store/slices/songSlice.ts:142 | removal by identifier distributes over concatenation, so order is kept |
| SongSlice.WithoutIdAbsent | apps/frontend/src/store/slices/songSlice.ts:142 | removing an identifier that no song has leaves the list unchanged |
| SongSlice.AfterDelete | apps/frontend/src/store/slices/songSlice.ts:144-172 | total drops by one but not below zero; the page resets to 1 on an empty catalogue and steps back when the page emptied; totalPages is at least one, covers the total for a positive limit, and is 1 when the total reaches 0 or the limit is zero or negative; a zero limit never has a next page; a next page needs a positive total |
| SongSlice.RecountAfterDelete | apps/frontend/src/store/slices/songSlice.ts:144-172 | the field-by-field update of the metadata yields exactly `AfterDelete` |
| SongSlice.FiltersAfterFetch | apps/frontend/src/store/slices/songSlice.ts:69-76 | page and limit come from the server metadata; sort field and direction are replaced only when truthy and otherwise kept; every other key is unchanged |
| SongSlice.SongState.constructor | apps/frontend/src/store/slices/songSlice.ts:24-38 | the initial state: no songs, page 1, limit 10, sort by createdAt descending, nothing busy, no error |
| SongSlice.SongState.MergeFilters | apps/frontend/src/store/slices/songSlice.ts:55-62 | the key-by-key loop leaves the filters equal to the merge of the old filters and the patch |
| SongSlice.SongState.FetchSongsRequest | apps/frontend/src/store/slices/songSlice.ts:44-64 | busy unless the request is silent, the error is cleared, the payload's filters are merged in, nothing else changes |
| SongSlice.SongState.FetchSongsSuccess | apps/frontend/src/store/slices/songSlice.ts:65-77 | the page of songs and its metadata are stored, the filters take page and limit and any truthy sort field and direction, nothing else changes |
| SongSlice.SongState.FetchSongsFailure | apps/frontend/src/store/slices/songSlice.ts:78-81 | not busy, the error is recorded, nothing else changes |
| SongSlice.SongState.CreateSongRequest | apps/frontend/src/store/slices/songSlice.ts:83-86 | mutating, error cleared, nothing else changes |
| SongSlice.SongState.CreateSongSuccess | apps/frontend/src/store/slices/songSlice.ts:87-108 | the list becomes `NewestFirst` of the old list and the metadata `AfterCreate` of the old metadata, nothing else changes |
| SongSlice.SongState.CreateSongFailure | apps/frontend/src/store/slices/songSlice.ts:109-112 | not mutating, the error is recorded, nothing else changes |
| SongSlice.SongState.UpdateSongRequest | apps/frontend/src/store/slices/songSlice.ts:114-120 | mutating, error cleared, nothing else changes |
| SongSlice.SongState.UpdateSongSuccess | apps/frontend/src/store/slices/songSlice.ts:121-130 | the song with the payload's identifier is replaced, the selection is cleared, nothing else changes |
| SongSlice.SongState.UpdateSongFailure | apps/frontend/src/store/slices/songSlice.ts:131-134 | not mutating, the error is recorded, nothing else changes |
| SongSlice.SongState.DeleteSongRequest | apps/frontend/src/store/slices/songSlice.ts:136-139 | mutating, error cleared, nothing else changes |
| SongSlice.SongState.DeleteSongSuccess | apps/frontend/src/store/slices/songSlice.ts:140-173 | the song is removed, the metadata becomes `AfterDelete`, the filters' page follows the metadata's page, nothing else changes |
| SongSlice.SongState.DeleteSongFailure | apps/frontend/src/store/slices/songSlice.ts:174-177 | not mutating, the error is recorded, nothing else changes |
| SongSlice.SongState.FetchStatisticsRequest | apps/frontend/src/store/slices/songSlice.ts:179-181 | the error is cleared, nothing else changes |
| SongSlice.SongState.FetchStatisticsSuccess | apps/frontend/src/store/slices/songSlice.ts:182-184 | the statistics are stored, nothing else changes |
| SongSlice.SongState.FetchStatisticsFailure | apps/frontend/src/store/slices/songSlice.ts:185-187 | the error is recorded, nothing else changes |
| SongSlice.SongState.SelectSong | apps/frontend/src/store/slices/songSlice.ts:189-191 | the selection is set, nothing else changes |
| SongSlice.SongState.SetFilters | apps/frontend/src/store/slices/songSlice.ts:192-201 | the filters become the merge of the old filters and the patch, nothing else changes |
| SongSlice.SongState.ClearError | apps/frontend/src/store/slices/songSlice.ts:202-204 | the error is cleared, nothing else changes |
| SongHelpers.CalculatePaginationInfo | apps/frontend/src/utils/songHelpers.ts:6-24 | previous and next page flags compare with the page bounds; an empty page shows 0–0; otherwise from is the first position of the page and to covers exactly the songs shown |
| SongHelpers.PaginationInfoIgnoresTotal | apps/frontend/src/utils/songHelpers.ts:6-24 | the total item count does not affect the result |
| SongHelpers.PagesAreContiguous | apps/frontend/src/utils/songHelpers.ts:15-16 | a full page ends one position before the next page starts |
| SongHelpers.ValidateSortField | apps/frontend/src/utils/songHelpers.ts:29-42 | the result is always one of the six sortable fields; a valid field is kept, anything else becomes createdAt |
| SongHelpers.ValidateSortFieldIdempotent | apps/frontend/src/utils/songHelpers.ts:29-42 | validating a validated field changes nothing |
| SongHelpers.ValidateSortOrder | apps/frontend/src/utils/songHelpers.ts:47-53 | the result is always asc or desc; a valid order is kept, anything else becomes desc |
| SongHelpers.ValidateSortOrderCaseSensitive | apps/frontend/src/utils/songHelpers.ts:47-53 | "ASC" is not recognised and falls back to desc |
| SongHelpers.FormatSongForDisplay | apps/frontend/src/utils/songHelpers.ts:58-64 | the display record carries the song's identifier and its four descriptive fields unchanged |
| SongHelpers.HasFiltersChanged | apps/frontend/src/utils/songHelpers.ts:69-76 | a change is reported only when the new filters name some key |
| SongHelpers.HasFiltersChangedLooksOnlyAtNewKeys | apps/frontend/src/utils/songHelpers.ts:69-76 | only the keys of the new filters are compared, and empty new filters never count as a change |
| SongHelpers.HasFiltersChangedAfterMerge | apps/frontend/src/utils/songHelpers.ts:69-76 | after merging a patch without `null` values it no longer counts as a change; with a `null` value it always does |
| SongHelpers.FilterChangeUpdate | apps/frontend/src/utils/songHelpers.ts:81-89 | the update names the key and page 1, and the key gets the value `TrimmedValue` sends for the input |
| SongHelpers.TrimmedValue | apps/frontend/src/utils/songHelpers.ts:87-88 | the sent value is null exactly when every typed character is white space, otherwise the non-empty trimmed text |
| SongHelpers.TrimmedValueStable | apps/frontend/src/utils/songHelpers.ts:87-88 | typing the already trimmed text sends the same value |
| SongHelpers.FilterChangeUpdateTrimStable | apps/frontend/src/utils/songHelpers.ts:81-89 | typing the trimmed text sends the same update as typing the original |
| SongHelpers.PageChange | apps/frontend/src/utils/songHelpers.ts:118-123 | the page is requested exactly when it is at least 1 and differs from the current page |
| SongHelpers.PageChangeIgnoresTotalPages | apps/frontend/src/utils/songHelpers.ts:112-123 | the number of pages does not affect the decision |
| SongFilterHook.DeriveFilters | apps/frontend/src/hooks/useSongFilters.ts:92-102 | all eight keys are reported; sort field and direction are always valid; a text key is `undefined` exactly when its value is empty; page and limit default to 1 and 10 |
| SongFilterHook.CleanUpdates | apps/frontend/src/hooks/useSongFilters.ts:42-55 | the same keys; a value becomes `null` exactly when it was `null`, `undefined` or empty; other values are kept |
| SongFilterHook.CleanUpdatesIdempotent | apps/frontend/src/hooks/useSongFilters.ts:42-55 | cleaning a cleaned patch changes nothing |
| SongFilterHook.UpdateFilterPatch | apps/frontend/src/hooks/useSongFilters.ts:34-40 | one key; `null` exactly for a `null`, `undefined` or empty value; otherwise the value |
| SongFilterHook.UpdateFilterAgreesWithUpdateFilters | apps/frontend/src/hooks/useSongFilters.ts:34-55 | updating one key writes what updating a one-key patch writes |
| SongFilterHook.ResetRestoresDefaults | apps/frontend/src/hooks/useSongFilters.ts:57-68 | after a reset the reported filters are exactly the defaults of an empty query string, whatever the query string was |
| SongFilterHook.ResetClearsText | apps/frontend/src/hooks/useSongFilters.ts:57-68 | after a reset no free-text key remains in the query state and every other key reads as its default |
| SongFilterHook.ResetPatchEntries | apps/frontend/src/hooks/useSongFilters.ts:57-68 | the reset clears the four text keys and writes createdAt, desc, page 1 and limit 10 |
| SongFilterHook.ReportsDefaults | apps/frontend/src/hooks/useSongFilters.ts:6-23 | a query state in which every key reads as its default is reported as exactly the default filters |
| SongFilterHook.SearchPatch | apps/frontend/src/hooks/useSongFilters.ts:70-74 | only the search key; an empty search clears it |
| SongFilterHook.PagePatch | apps/frontend/src/hooks/useSongFilters.ts:76-78 | only the page key, with the requested page |
| SongFilterHook.PageSizePatch | apps/frontend/src/hooks/useSongFilters.ts:80-82 | the new limit, and page 1 |
| SongFilterHook.SortPatch | apps/frontend/src/hooks/useSongFilters.ts:84-90 | the sort field and page 1, and the direction only when it is truthy |
| SongFilterHook.StoreFiltersAfterFetch | apps/frontend/src/hooks/useSongFilters.ts:92-102 | once the hook's filters reach the client store, the store's sort field and direction are valid, page and limit are present, and a text key is present exactly when it is non-empty |
| SongFilterHook.FilterQuery.constructor | apps/frontend/src/hooks/useSongFilters.ts:6-23 | the hook starts from the given query string and marks the first render |
| SongFilterHook.FilterQuery.MountEffect | apps/frontend/src/hooks/useSongFilters.ts:25-29 | after the effect the first-render flag is cleared |
| SongFilterHook.FilterQuery.SetFilters | apps/frontend/src/hooks/useSongFilters.ts:6-21 | the query string becomes the merge of the old one and the patch |
| SongFilterHook.FilterQuery.UpdateFilter | apps/frontend/src/hooks/useSongFilters.ts:34-40 | the one-key patch is merged; a `null`, `undefined` or empty value removes the key |
| SongFilterHook.FilterQuery.UpdateFilters | apps/frontend/src/hooks/useSongFilters.ts:42-55 | the cleaned patch is merged |
| SongFilterHook.FilterQuery.ResetFilters | apps/frontend/src/hooks/useSongFilters.ts:57-68 | the reset patch is merged and the reported filters are the defaults |
| SongFilterHook.FilterQuery.UpdateSearchImmediate | apps/frontend/src/hooks/useSongFilters.ts:70-74 | the reported search is the value, or `undefined` when it is empty |
| SongFilterHook.FilterQuery.UpdatePage | apps/frontend/src/hooks/useSongFilters.ts:76-78 | the reported page is the requested page |
| SongFilterHook.FilterQuery.UpdatePageSize | apps/frontend/src/hooks/useSongFilters.ts:80-82 | the reported limit is the new size and the page is 1 |
| SongFilterHook.FilterQuery.UpdateSort | apps/frontend/src/hooks/useSongFilters.ts:84-90 | the reported page is 1 and the reported sort field is the validated field |
| SongSchema.FieldIssues | apps/frontend/src/schema/song.schema.ts:3-8 | a field has no issue exactly when its trimmed value is non-empty, and otherwise one issue with its message |
| SongSchema.ParseSongForm | apps/frontend/src/schema/song.schema.ts:3-8 | parsing succeeds exactly when all four trimmed fields are non-empty and yields the trimmed form; otherwise it reports every failing field in field order |
| SongSchema.ParseReportsBlankFields | apps/frontend/src/schema/song.schema.ts:3-8 | each required-field message is reported exactly when that field is blank |
| SongSchema.FieldReported | apps/frontend/src/schema/song.schema.ts:3-8 | a field's required message is reported exactly when that field trims to empty |
| SongSchema.ParseIdempotent | apps/frontend/src/schema/song.schema.ts:3-8 | a parsed form parses to itself |
| SongModel.RequiredTrimmed | apps/backend/src/models/song.ts:14-18 | a field passes exactly when it is present and non-empty after trimming, and yields the trimmed value; otherwise the field's message |
| SongModel.ValidateNew | apps/backend/src/models/song.ts:14-33 | a new document is valid exactly when all four fields are present and non-empty after trimming; it then holds the trimmed values; otherwise a field's message is reported exactly when that field is missing or blank after trimming, and no other message is |
| SongModel.ValidateUpdate | apps/backend/src/controllers/songController.ts:63-67 | only the fields the body carries are checked; the update is valid exactly when each of them is non-empty after trimming, and then carries them trimmed; otherwise a field's message is reported exactly when the body carries that field blank after trimming, and no other message is |
| SongModel.ValidatedFieldsWellFormed | apps/backend/src/models/song.ts:14-33 | a document built from validated fields has trimmed, non-empty fields |
| SongService.FirstWith | apps/backend/src/services/songService.ts:49 | some song has the value exactly when a first one is found, and the one found has it |
| SongService.FirstWithIsFirst | apps/backend/src/services/songService.ts:49 | the song found is the one at the first index holding the value |
| SongService.Groups | apps/backend/src/services/songService.ts:33 | every group holds at least one song, and there are no more groups than songs |
| SongService.Grouped | apps/backend/src/services/songService.ts:32-35 | the groups sorted by count, largest first, as a permutation of the groups |
| SongService.GroupsKeys | apps/backend/src/services/songService.ts:44-53 | the groups' keys are exactly the distinct values, without repeats |
| SongService.GroupsLength | apps/backend/src/services/songService.ts:19-29 | there are as many groups as distinct values |
| SongService.GroupsSum | apps/backend/src/services/songService.ts:32-35 | the group counts add up to the number of songs |
| SongService.GroupsAgreeWithSongs | apps/backend/src/services/songService.ts:44-53 | each group counts the songs with its value and carries the artist of the value's first song |
| SongService.GroupedExact | apps/backend/src/services/songService.ts:44-53 | after sorting by count, the groups are still one per distinct value with exact counts summing to the number of songs, and they are in non-increasing count order |
| SongService.Categories | apps/backend/src/services/songService.ts:32-35 | the `{ _id, count }` list keeps each group's key and count, position by position |
| SongService.CategoriesExact | apps/backend/src/services/songService.ts:32-41 | the genre and artist lists have one entry per distinct value, exact counts summing to the number of songs, largest first |
| SongService.GetStatistics | apps/backend/src/services/songService.ts:14-67 | a failing sub-query aborts the whole computation with "Failed to get statistics: " followed by the error's string form; otherwise the result is the statistics object of the collection |
| SongService.ComputeStatistics | apps/backend/src/services/songService.ts:17-63 | totalSongs is the number of songs, each distinct total counts the field's distinct values, and each list has as many entries as its total |
| SongService.SongsByGenreExact | apps/backend/src/services/songService.ts:32-35 | one entry per genre, exact counts summing to totalSongs, largest first |
| SongService.SongsByArtistExact | apps/backend/src/services/songService.ts:38-41 | one entry per artist, exact counts summing to totalSongs, largest first |
| SongService.SongsByAlbumExact | apps/backend/src/services/songService.ts:44-53 | one entry per album, exact counts summing to totalSongs, largest first, each with the artist of the album's first song in collection order |
| SongController.CastFilter | apps/backend/src/models/song.ts:14-33 | the store casts each filter value through the schema's `trim` setter: the same keys, each value trimmed |
| SongController.Select | apps/backend/src/controllers/songController.ts:35 | exactly the songs whose fields equal the (already cast) filter's values are kept, and there are no more of them than stored songs |
| SongController.SelectCounts | apps/backend/src/controllers/songController.ts:35 | each matching song is kept as many times as the collection holds it, and no other song is kept |
| SongController.SelectAppend | apps/backend/src/controllers/songController.ts:35 | selection keeps collection order: selecting from two lists joined is joining their selections |
| SongController.FilterMeansQuery | apps/backend/src/controllers/songController.ts:28-35 | the built filter, once the store has cast it, selects exactly the songs that have each truthy query parameter's value with white space trimmed from both ends |
| SongController.Locate | apps/backend/src/controllers/songController.ts:45 | the position of the song with the identifier, or -1 exactly when there is none |
| SongController.Applied | apps/backend/src/controllers/songController.ts:63-67 | an update replaces the fields the body carries, keeps the others and the creation time, and sets the update time |
| SongController.ValidatedUpdateKeepsWellFormed | apps/backend/src/controllers/songController.ts:63-67 | a validated update keeps a document's fields trimmed and non-empty |
| SongController.AppendKeepsConsistent | apps/backend/src/controllers/songController.ts:18 | inserting a valid document with a fresh identifier keeps identifiers unique and documents well formed |
| SongController.ReplaceKeepsConsistent | apps/backend/src/controllers/songController.ts:63-67 | replacing a document by a valid one with the same identifier keeps the collection consistent |
| SongController.RemoveKeepsConsistent | apps/backend/src/controllers/songController.ts:83 | removing a document keeps the collection consistent and its identifier absent |
| SongController.SongCollection.constructor | apps/backend/src/models/song.ts:43 | the collection starts empty and consistent |
| SongController.SongCollection.BuildFilter | apps/backend/src/controllers/songController.ts:28-33 | artist, genre and album are in the filter exactly when their query parameter is truthy, with that value |
| SongController.SongCollection.GetAllSongs | apps/backend/src/controllers/songController.ts:26-40 | 200 with exactly the songs whose artist, genre and album equal each truthy parameter trimmed, each as many times as stored, newest first; a store failure answers 500 with its message |
| SongController.SongCollection.GetSongById | apps/backend/src/controllers/songController.ts:43-56 | 200 with the song holding the identifier, which is the only stored song with it while identifiers are unique; 404 "Song not found" when there is none; 500 on a store failure |
| SongController.SongCollection.CreateSong | apps/backend/src/controllers/songController.ts:7-23 | 400 with the validation messages for an invalid body; 400 on a store failure; otherwise 201 with the new trimmed song appended, both timestamps set to now; the collection stays consistent |
| SongController.SongCollection.UpdateSong | apps/backend/src/controllers/songController.ts:59-78 | 400 with the cast error for a malformed identifier, before the body is checked; then 400 for an invalid body before any lookup; then 400 for a store failure; 404 when the identifier is absent; otherwise 200 with the updated song in place; the collection stays consistent |
| SongController.SongCollection.DeleteSong | apps/backend/src/controllers/songController.ts:81-94 | 404 when absent; otherwise 200 with "Song deleted successfully" and the removed song, which is then gone; 500 on a store failure |
| SongController.SongCollection.GetStatistics | apps/backend/src/controllers/songController.ts:97-104 | 200 with the statistics of the whole collection, or 500 with "Failed to get statistics: " and the error's string form |

## Left out

- Sagas, network calls and the React components that dispatch the
  reducers are left out. They are asynchronous plumbing around the store.
- The ordering of concurrent requests is not modelled.
- URL serialisation by the query-state library is not modelled. A query
  parameter of the wrong kind reads as its default.
- Non-integer numbers, `NaN` and the `?? 0` fallback for a missing total are
  not modelled. Pagination totals are always integers here.
- Object-identifier syntax is not modelled. A malformed identifier is one
  of the store failures the `fault` parameter stands for. UpdateSong takes
  it as a separate `castFault`, because the store casts the identifier
  before it validates the update, so a malformed identifier with an
  invalid body answers with the cast error.
- The text of the store's validation error, with its "Song validation
  failed" prefix and field paths, is not modelled. The model keeps the list
  of field messages instead.
- The duplicate-identifier error is not modelled in detail. Only its status
  (400) and its message-only body are modelled, because its wording is the
  store's.
- `createSortChangeHandler` is left out. It only forwards the selected value
  and the current value to `updateSort`, which is modelled.
- The `pageSizeChange` handler is left out. It only forwards
  `Number(value)` to `updatePageSize`, which is modelled.
- `createActionHandlers` is left out. It is a browser confirmation dialog
  followed by a dispatch of `deleteSongRequest` or `selectSong`, both of
  which are modelled.
- Sorting.SortDesc: the store does not promise an order among equal keys.
  The model uses one stable order, and the contracts promise only the
  descending order and the permutation.
- SongSlice.NewestFirst: for a negative limit and an empty list, the code
  drops the song it just added. The contract states that case as written
  and does not promise the new song comes first there.
- The `rawFilters` and `isInitialMount` values the hook returns are not
  modelled as outputs. They are the stored query state and flag themselves.
- SongController.SongCollection.GetAllSongs: query parameters are modelled
  as single strings only. A repeated parameter arrives as an array, which
  the store casts to a match on any of its values. A bracketed parameter
  under the extended query parser arrives as an object, which the store
  reads as a query operator. Neither case is modelled, so "equality with the trimmed parameter"
  holds for string parameters only. SongController.SongCollection.BuildFilter
  has the same limit.
- SongModel.ValidateUpdate: a body field is either a string or absent
  (`None`). An explicit JSON `null` is not stripped the way `undefined` is.
  It reaches the store as a `$set` to null, where the `required` update
  validator rejects it. That input cannot be written in the model.
  SongController.SongCollection.UpdateSong has the same limit.
- SongModel.ValidateNew: a body field is either a string or absent. A
  non-string JSON value such as `"title": 123` is cast by the store to the
  string `"123"` and then trimmed and checked; that input cannot be written
  in the model. SongModel.ValidateUpdate,
  SongController.SongCollection.CreateSong and
  SongController.SongCollection.UpdateSong have the same limit.
- A thrown value that is not an `Error` object is not modelled as a fault.
  The store raises only `Error` objects, whose string form `ErrorText`
  gives.

=== FILE: filter_patch.dfy ===
/**
 * Applying a filter patch to a filter object, key by key: a key whose new
 * value is `null` or `undefined` is deleted, any other key in the patch is
 * overwritten, and keys the patch does not mention are left alone. The
 * client store's `setFilters` and `fetchSongsRequest` reducers do this with
 * a loop over the patch's entries (SongSlice.SongState.MergeFilters), and the
 * URL query state the filter hook writes to treats `null` the same way.
 */
module FilterPatch {
  import opened Types

  predicate IsNullish(v: Value) {
    v == Undefined || v == Null
  }

  /** Property access: a missing key reads as `undefined`. */
  function Read(m: map<FilterKey, Value>, k: FilterKey): Value {
    if k in m then m[k] else Undefined
  }

  /** No key of `m` holds `null` or `undefined`. */
  predicate Settled(m: map<FilterKey, Value>) {
    forall k :: k in m ==> !IsNullish(m[k])
  }

  function Merged(current: map<FilterKey, Value>, patch: map<FilterKey, Value>): (r: map<FilterKey, Value>)
    ensures forall k :: k in patch && IsNullish(patch[k]) ==> k !in r
    ensures forall k :: k in patch && !IsNullish(patch[k]) ==> k in r && r[k] == patch[k]
    ensures forall k :: k !in patch ==> (k in r <==> k in current) && Read(r, k) == Read(current, k)
    ensures Settled(current) ==> Settled(r)
  {
    map k | k in current.Keys + patch.Keys && (k in patch ==> !IsNullish(patch[k])) ::
      if k in patch then patch[k] else current[k]
  }

  /** Applying the same patch a second time changes nothing. */
  lemma MergedIdempotent(current: map<FilterKey, Value>, patch: map<FilterKey, Value>)
    ensures Merged(Merged(current, patch), patch) == Merged(current, patch)
  {
    var once := Merged(current, patch);
    var twice := Merged(once, patch);
    forall k ensures k in twice <==> k in once {
      if k in patch {
        assert k in twice <==> !IsNullish(patch[k]);
      }
    }
    assert twice.Keys == once.Keys;
  }

  /** Of two patches applied in turn, the later one wins on every key it
      mentions; together they act as one patch. */
  lemma MergedTwice(current: map<FilterKey, Value>, first: map<FilterKey, Value>, second: map<FilterKey, Value>)
    ensures Merged(Merged(current, first), second) == Merged(current, first + second)
  {
    var lhs := Merged(Merged(current, first), second);
    var rhs := Merged(current, first + second);
    forall k ensures k in lhs <==> k in rhs {
      if k in second {
        assert (first + second)[k] == second[k];
      } else if k in first {
        assert (first + second)[k] == first[k];
      }
    }
    assert lhs.Keys == rhs.Keys;
  }

  /** Applying one more key of a patch deletes or overwrites that key of the
      partly merged map. */
  lemma MergedStep(current: map<FilterKey, Value>, patch: map<FilterKey, Value>, pending: set<FilterKey>, key: FilterKey)
    requires key in pending && pending <= patch.Keys
    ensures var before := Merged(current, patch - pending);
      Merged(current, patch - (pending - {key})) ==
        if IsNullish(patch[key]) then before - {key} else before[key := patch[key]]
  {
    var before := Merged(current, patch - pending);
    var done := patch - (pending - {key});
    var after := Merged(current, done);
    var want := if IsNullish(patch[key]) then before - {key} else before[key := patch[key]];
    forall k ensures k in after <==> k in want {
      if k == key {
        assert k in done && done[k] == patch[key];
      } else {
        assert k in done <==> k in patch - pending;
      }
    }
    assert after.Keys == want.Keys;
    forall k | k in after ensures after[k] == want[k] {
      if k != key {
        assert k in done <==> k in patch - pending;
      }
    }
  }
}

=== FILE: js_strings.dfy ===
/**
 * `String.prototype.trim` as used by the form schema (zod `.trim()`) and by
 * the mongoose `trim: true` setter: it removes every leading and trailing
 * character that ECMAScript counts as WhiteSpace or LineTerminator.
 */
module JsStrings {

  /** ECMAScript WhiteSpace (TAB, VT, FF, SP, NBSP, ZWNBSP and the Unicode
      space separators) and LineTerminator (LF, CR, LS, PS). */
  predicate IsWhitespace(c: char) {
    || c == '\t' || c == '\n' || c == '\U{000B}' || c == '\U{000C}' || c == '\r'
    || c == ' ' || c == '\U{00A0}' || c == '\U{1680}'
    || ('\U{2000}' <= c <= '\U{200A}')
    || c == '\U{2028}' || c == '\U{2029}' || c == '\U{202F}' || c == '\U{205F}'
    || c == '\U{3000}' || c == '\U{FEFF}'
  }

  /** Drops the leading whitespace: the result is a suffix of `s` that does
      not start with whitespace, and everything dropped was whitespace. */
  function TrimStart(s: string): (r: string)
    ensures |r| <= |s| && r == s[|s| - |r|..]
    ensures forall k :: 0 <= k < |s| - |r| ==> IsWhitespace(s[k])
    ensures r == [] || !IsWhitespace(r[0])
  {
    if s == [] then []
    else if IsWhitespace(s[0]) then TrimStart(s[1..])
    else s
  }

  /** Drops the trailing whitespace: the result is a prefix of `s` that does
      not end with whitespace, and everything dropped was whitespace. */
  function TrimEnd(s: string): (r: string)
    ensures |r| <= |s| && r == s[..|r|]
    ensures forall k :: |r| <= k < |s| ==> IsWhitespace(s[k])
    ensures r == [] || !IsWhitespace(r[|r| - 1])
  {
    if s == [] then []
    else if IsWhitespace(s[|s| - 1]) then TrimEnd(s[..|s| - 1])
    else s
  }

  /** `String.prototype.trim`: white space cut from both ends. The result is
      a contiguous piece of the input with no white space at either end, and
      only white space was cut on either side. */
  function Trim(s: string): (r: string)
    ensures |r| <= |s|
    ensures r == [] || (!IsWhitespace(r[0]) && !IsWhitespace(r[|r| - 1]))
    ensures var t := TrimStart(s); |r| <= |t| && r == t[..|r|]
  {
    var t := TrimStart(s);
    var r := TrimEnd(t);
    if r != [] then
      assert r[0] == t[0];
      r
    else r
  }

  /** Trimming is idempotent. */
  lemma TrimIdempotent(s: string)
    ensures Trim(Trim(s)) == Trim(s)
  {
    var r := Trim(s);
    if r != [] {
      assert TrimStart(r) == r;
      assert TrimEnd(r) == r;
    }
  }

  /** A string trims to the empty string exactly when it is all whitespace. */
  lemma TrimEmptyIff(s: string)
    ensures Trim(s) == [] <==> forall k :: 0 <= k < |s| ==> IsWhitespace(s[k])
  {
    var t := TrimStart(s);
    if Trim(s) == [] {
      assert |t| == 0;
    } else {
      var r := Trim(s);
      assert !IsWhitespace(r[0]);
      assert r[0] == t[0] == s[|s| - |t|];
    }
  }
}

=== FILE: song_controller.dfy ===
/**
 * The song HTTP handlers over the song collection. Each handler is a method
 * of the collection that returns the response it sends (status and JSON
 * body). The store's identifier and clock values, and the failures the store
 * can raise (cast errors, lost connections), are parameters: `fault` is the
 * error the store raised, if any; a handler's `catch` answers with its
 * `message`.
 */
module SongController {
  import opened Types
  import opened SongModel
  import SongService
  import Sorting
  import JsStrings

  datatype Body =
    | SongJson(song: StoredSong)
    | SongList(songs: seq<StoredSong>)
    | StatsJson(stats: Statistics)
    | Message(message: string)
    | ValidationFailed(errors: seq<string>)
    | Deleted(message: string, song: StoredSong)

  datatype Response = Response(status: int, body: Body)

  const NotFound: Response := Response(404, Message("Song not found"))

  /** A song matches a filter when it has every field value the filter names. */
  predicate Matches(s: StoredSong, filter: map<SongService.GroupField, string>) {
    forall f :: f in filter ==> SongService.ValueOf(s, f) == filter[f]
  }

  /** The store casts a query filter before matching: each value goes
      through the schema's `trim` setter (the artist, album and genre paths
      are declared `trim: true`). */
  function CastFilter(filter: map<SongService.GroupField, string>): (r: map<SongService.GroupField, string>)
    ensures r.Keys == filter.Keys
    ensures forall f :: f in r ==> r[f] == JsStrings.Trim(filter[f])
  {
    map f | f in filter :: JsStrings.Trim(filter[f])
  }

  /** The matching songs, in collection order. */
  function Select(docs: seq<StoredSong>, filter: map<SongService.GroupField, string>): (r: seq<StoredSong>)
    ensures forall s :: s in r <==> s in docs && Matches(s, filter)
    ensures |r| <= |docs|
  {
    if docs == [] then []
    else if Matches(docs[0], filter) then [docs[0]] + Select(docs[1..], filter)
    else Select(docs[1..], filter)
  }

  /** Selection keeps every matching song as often as the collection holds
      it, and no other song. */
  lemma {:induction false} SelectCounts(docs: seq<StoredSong>, filter: map<SongService.GroupField, string>)
    ensures forall s :: multiset(Select(docs, filter))[s] == if Matches(s, filter) then multiset(docs)[s] else 0
  {
    if docs != [] {
      SelectCounts(docs[1..], filter);
      assert docs == [docs[0]] + docs[1..];
    }
  }

  /** Selection keeps collection order: it distributes over concatenation. */
  lemma {:induction false} SelectAppend(a: seq<StoredSong>, b: seq<StoredSong>, filter: map<SongService.GroupField, string>)
    ensures Select(a + b, filter) == Select(a, filter) + Select(b, filter)
  {
    if a == [] {
      assert a + b == b;
    } else {
      var ab := a + b;
      assert ab[0] == a[0] && ab[1..] == a[1..] + b;
      var x, y := Select(a[1..], filter), Select(b, filter);
      SelectAppend(a[1..], b, filter);
      if Matches(a[0], filter) {
        assert [a[0]] + (x + y) == ([a[0]] + x) + y;
      }
    }
  }

  /** A song satisfies the query when it has each truthy parameter's value,
      white space trimmed from both ends. */
  predicate MatchesQuery(s: StoredSong, artist: Option<string>, genre: Option<string>, album: Option<string>) {
    && (IsTruthy(artist) ==> s.artist == JsStrings.Trim(artist.value))
    && (IsTruthy(genre) ==> s.genre == JsStrings.Trim(genre.value))
    && (IsTruthy(album) ==> s.album == JsStrings.Trim(album.value))
  }

  /** The filter built from the query selects exactly the songs satisfying it. */
  lemma FilterMeansQuery(s: StoredSong, filter: map<SongService.GroupField, string>,
                         artist: Option<string>, genre: Option<string>, album: Option<string>)
    requires SongService.ByArtist in filter <==> IsTruthy(artist)
    requires SongService.ByGenre in filter <==> IsTruthy(genre)
    requires SongService.ByAlbum in filter <==> IsTruthy(album)
    requires SongService.ByArtist in filter ==> filter[SongService.ByArtist] == artist.value
    requires SongService.ByGenre in filter ==> filter[SongService.ByGenre] == genre.value
    requires SongService.ByAlbum in filter ==> filter[SongService.ByAlbum] == album.value
    ensures Matches(s, CastFilter(filter)) <==> MatchesQuery(s, artist, genre, album)
  {
    var cast := CastFilter(filter);
    if MatchesQuery(s, artist, genre, album) {
      forall f | f in cast ensures SongService.ValueOf(s, f) == cast[f] {
        match f
        case ByArtist =>
        case ByGenre =>
        case ByAlbum =>
      }
    }
    if Matches(s, cast) {
      if IsTruthy(artist) { assert SongService.ByArtist in cast; }
      if IsTruthy(genre) { assert SongService.ByGenre in cast; }
      if IsTruthy(album) { assert SongService.ByAlbum in cast; }
    }
  }

  function CreatedAt(s: StoredSong): int {
    s.createdAt
  }

  /** The position of the song with identifier `id`, or -1. */
  function Locate(docs: seq<StoredSong>, id: string): (i: int)
    ensures -1 <= i < |docs|
    ensures i == -1 <==> forall j :: 0 <= j < |docs| ==> docs[j].id != id
    ensures i >= 0 ==> docs[i].id == id && forall j :: 0 <= j < i ==> docs[j].id != id
  {
    if docs == [] then -1
    else if docs[0].id == id then 0
    else
      var i := Locate(docs[1..], id);
      if i == -1 then -1 else i + 1
  }

  /** `docs` without the entry at position `i`, the others in order. */
  function RemoveAt(docs: seq<StoredSong>, i: nat): (r: seq<StoredSong>)
    requires i < |docs|
    ensures |r| == |docs| - 1
    ensures forall j :: 0 <= j < |r| ==> r[j] == docs[if j < i then j else j + 1]
  {
    if i == 0 then docs[1..] else [docs[0]] + RemoveAt(docs[1..], i - 1)
  }

  predicate UniqueIds(docs: seq<StoredSong>) {
    forall i, j :: 0 <= i < j < |docs| ==> docs[i].id != docs[j].id
  }

  /** An update applied to a stored song: the fields the body carries are
      replaced, the rest and the creation time are kept, and the update time
      becomes `now`. */
  function Applied(s: StoredSong, b: SongBody, now: int): (r: StoredSong)
    ensures r.id == s.id && r.createdAt == s.createdAt && r.updatedAt == now
    ensures r.title == (if b.title.Some? then b.title.value else s.title)
    ensures r.artist == (if b.artist.Some? then b.artist.value else s.artist)
    ensures r.album == (if b.album.Some? then b.album.value else s.album)
    ensures r.genre == (if b.genre.Some? then b.genre.value else s.genre)
  {
    StoredSong(
      s.id,
      if b.title.Some? then b.title.value else s.title,
      if b.artist.Some? then b.artist.value else s.artist,
      if b.album.Some? then b.album.value else s.album,
      if b.genre.Some? then b.genre.value else s.genre,
      s.createdAt,
      now)
  }

  /** Every song in `docs` satisfies `P`. */
  predicate Every(docs: seq<StoredSong>, P: StoredSong -> bool) {
    docs == [] || (P(docs[0]) && Every(docs[1..], P))
  }

  lemma {:induction false} EveryAt(docs: seq<StoredSong>, P: StoredSong -> bool, i: nat)
    requires Every(docs, P) && i < |docs|
    ensures P(docs[i])
  {
    if i > 0 {
      EveryAt(docs[1..], P, i - 1);
    }
  }

  lemma {:induction false} EveryConcat(a: seq<StoredSong>, b: seq<StoredSong>, P: StoredSong -> bool)
    ensures Every(a + b, P) <==> Every(a, P) && Every(b, P)
  {
    if a == [] {
      assert a + b == b;
    } else {
      assert (a + b)[0] == a[0];
      assert (a + b)[1..] == a[1..] + b;
      EveryConcat(a[1..], b, P);
    }
  }

  lemma {:induction false} EveryAppend(docs: seq<StoredSong>, song: StoredSong, P: StoredSong -> bool)
    requires Every(docs, P) && P(song)
    ensures Every(docs + [song], P)
  {
    EveryConcat(docs, [song], P);
    assert [song][1..] == [];
  }

  lemma {:induction false} EveryReplace(docs: seq<StoredSong>, i: nat, song: StoredSong, P: StoredSong -> bool)
    requires Every(docs, P) && i < |docs| && P(song)
    ensures Every(docs[i := song], P)
  {
    if i == 0 {
      assert docs[i := song][1..] == docs[1..];
    } else {
      EveryReplace(docs[1..], i - 1, song, P);
      assert docs[i := song][1..] == docs[1..][i - 1 := song];
    }
  }

  lemma {:induction false} EveryRemoveAt(docs: seq<StoredSong>, i: nat, P: StoredSong -> bool)
    requires Every(docs, P) && i < |docs|
    ensures Every(RemoveAt(docs, i), P)
  {
    if i > 0 {
      var rest := RemoveAt(docs[1..], i - 1);
      EveryRemoveAt(docs[1..], i - 1, P);
      assert ([docs[0]] + rest)[1..] == rest;
    }
  }

  /** What the collection keeps invariant: identifiers are unique and every
      stored song went through the schema's trimming and `required` checks. */
  predicate Consistent(docs: seq<StoredSong>) {
    UniqueIds(docs) && Every(docs, WellFormed)
  }

  /** Appending a well-formed song with a fresh identifier keeps the
      collection consistent. */
  lemma {:induction false} AppendKeepsConsistent(docs: seq<StoredSong>, song: StoredSong)
    requires Consistent(docs) && WellFormed(song) && Locate(docs, song.id) == -1
    ensures Consistent(docs + [song])
  {
    AppendKeepsUnique(docs, song);
    EveryAppend(docs, song, WellFormed);
  }

  lemma {:induction false} AppendKeepsUnique(docs: seq<StoredSong>, song: StoredSong)
    requires UniqueIds(docs) && forall j :: 0 <= j < |docs| ==> docs[j].id != song.id
    ensures UniqueIds(docs + [song])
  {
    var r := docs + [song];
    forall i, j | 0 <= i < j < |r| ensures r[i].id != r[j].id {
      assert r[i] == docs[i];
      if j < |docs| {
        assert r[j] == docs[j];
      }
    }
  }

  /** Replacing a song by a well-formed one with the same identifier keeps
      the collection consistent. */
  lemma {:induction false} ReplaceKeepsConsistent(docs: seq<StoredSong>, i: nat, song: StoredSong)
    requires Consistent(docs) && i < |docs| && WellFormed(song) && song.id == docs[i].id
    ensures Consistent(docs[i := song])
  {
    var r := docs[i := song];
    forall j | 0 <= j < |r| ensures r[j].id == docs[j].id {
      if j != i {
        assert r[j] == docs[j];
      }
    }
    EveryReplace(docs, i, song, WellFormed);
  }

  /** Removing a song keeps the collection consistent, and its identifier is
      then absent. */
  lemma {:induction false} RemoveKeepsConsistent(docs: seq<StoredSong>, i: nat)
    requires Consistent(docs) && i < |docs|
    ensures Consistent(RemoveAt(docs, i))
    ensures Locate(RemoveAt(docs, i), docs[i].id) == -1
  {
    RemoveKeepsUnique(docs, i);
    EveryRemoveAt(docs, i, WellFormed);
  }

  lemma {:induction false} RemoveKeepsUnique(docs: seq<StoredSong>, i: nat)
    requires UniqueIds(docs) && i < |docs|
    ensures UniqueIds(RemoveAt(docs, i))
    ensures Locate(RemoveAt(docs, i), docs[i].id) == -1
  {
    var r := RemoveAt(docs, i);
    forall j | 0 <= j < |r| ensures r[j] == docs[if j < i then j else j + 1] {
    }
    forall j | 0 <= j < |r| ensures r[j].id != docs[i].id {
      assert r[j] == docs[if j < i then j else j + 1];
    }
  }

  /** A validated update keeps a well-formed song well formed. */
  lemma {:induction false} ValidatedUpdateKeepsWellFormed(s: StoredSong, body: SongBody, now: int)
    requires WellFormed(s) && ValidateUpdate(body).Success?
    ensures WellFormed(Applied(s, ValidateUpdate(body).value, now))
  {
    if body.title.Some? { JsStrings.TrimIdempotent(body.title.value); }
    if body.artist.Some? { JsStrings.TrimIdempotent(body.artist.value); }
    if body.album.Some? { JsStrings.TrimIdempotent(body.album.value); }
    if body.genre.Some? { JsStrings.TrimIdempotent(body.genre.value); }
  }

  /** The `Song` collection. */
  class SongCollection {
    var docs: seq<StoredSong>

    ghost predicate Valid()
      reads this
    {
      Consistent(docs)
    }

    constructor ()
      ensures docs == [] && Valid()
    {
      docs := [];
    }

    /** The query filter: each of artist, genre and album is added when its
        query parameter is truthy. */
    method BuildFilter(artist: Option<string>, genre: Option<string>, album: Option<string>)
      returns (filter: map<SongService.GroupField, string>)
      ensures SongService.ByArtist in filter <==> IsTruthy(artist)
      ensures SongService.ByGenre in filter <==> IsTruthy(genre)
      ensures SongService.ByAlbum in filter <==> IsTruthy(album)
      ensures SongService.ByArtist in filter ==> filter[SongService.ByArtist] == artist.value
      ensures SongService.ByGenre in filter ==> filter[SongService.ByGenre] == genre.value
      ensures SongService.ByAlbum in filter ==> filter[SongService.ByAlbum] == album.value
    {
      filter := map[];
      if IsTruthy(artist) {
        filter := filter[SongService.ByArtist := artist.value];
      }
      if IsTruthy(genre) {
        filter := filter[SongService.ByGenre := genre.value];
      }
      if IsTruthy(album) {
        filter := filter[SongService.ByAlbum := album.value];
      }
    }

    /** `GET /`: the songs matching the truthy filters, newest first. */
    method GetAllSongs(artist: Option<string>, genre: Option<string>, album: Option<string>, fault: Option<StoreError>)
      returns (resp: Response)
      ensures fault.Some? ==> resp == Response(500, Message(fault.value.message))
      ensures fault.None? ==> resp.status == 200 && resp.body.SongList?
      ensures resp.body.SongList? ==>
        && Sorting.SortedDesc(resp.body.songs, CreatedAt)
        && (forall s :: s in resp.body.songs <==> s in docs && MatchesQuery(s, artist, genre, album))
        && (forall s :: multiset(resp.body.songs)[s] ==
              if MatchesQuery(s, artist, genre, album) then multiset(docs)[s] else 0)
    {
      if fault.Some? {
        return Response(500, Message(fault.value.message));
      }
      var filter := BuildFilter(artist, genre, album);
      var cast := CastFilter(filter);
      var found := Select(docs, cast);
      SelectCounts(docs, cast);
      var songs := Sorting.SortDesc(found, CreatedAt);
      Sorting.SameElements(songs, found);
      forall s ensures Matches(s, cast) <==> MatchesQuery(s, artist, genre, album) {
        FilterMeansQuery(s, filter, artist, genre, album);
      }
      resp := Response(200, SongList(songs));
    }

    /** `GET /:id`. */
    method GetSongById(id: string, fault: Option<StoreError>) returns (resp: Response)
      ensures fault.Some? ==> resp == Response(500, Message(fault.value.message))
      ensures fault.None? && (forall i :: 0 <= i < |docs| ==> docs[i].id != id) ==> resp == NotFound
      ensures fault.None? && (exists i :: 0 <= i < |docs| && docs[i].id == id) ==>
        resp.status == 200 && resp.body.SongJson? && resp.body.song in docs && resp.body.song.id == id
      ensures Valid() && resp.body.SongJson? ==>
        forall j :: 0 <= j < |docs| && docs[j].id == id ==> docs[j] == resp.body.song
    {
      if fault.Some? {
        return Response(500, Message(fault.value.message));
      }
      var i := Locate(docs, id);
      if i == -1 {
        return NotFound;
      }
      resp := Response(200, SongJson(docs[i]));
    }

    /** `POST /`: validation, then the store's insert. A new song gets the
        store's identifier and `now` as both timestamps and is appended. */
    method CreateSong(body: SongBody, id: string, now: int, fault: Option<StoreError>) returns (resp: Response)
      requires Valid()
      modifies this
      ensures Valid()
      ensures ValidateNew(body).Failure? ==>
        resp == Response(400, ValidationFailed(ValidateNew(body).error)) && docs == old(docs)
      ensures ValidateNew(body).Success? && fault.Some? ==>
        resp == Response(400, Message(fault.value.message)) && docs == old(docs)
      ensures ValidateNew(body).Success? && fault.None? ==>
        var f := ValidateNew(body).value;
        var song := StoredSong(id, f.title, f.artist, f.album, f.genre, now, now);
        if exists i :: 0 <= i < |old(docs)| && old(docs)[i].id == id then
          resp.status == 400 && resp.body.Message? && docs == old(docs)
        else
          resp == Response(201, SongJson(song)) && docs == old(docs) + [song]
    {
      var validated := ValidateNew(body);
      if validated.Failure? {
        return Response(400, ValidationFailed(validated.error));
      }
      if fault.Some? {
        return Response(400, Message(fault.value.message));
      }
      if Locate(docs, id) != -1 {
        return Response(400, Message("E11000 duplicate key error"));
      }
      var f := validated.value;
      var song := StoredSong(id, f.title, f.artist, f.album, f.genre, now, now);
      ValidatedFieldsWellFormed(body, id, now);
      AppendKeepsConsistent(docs, song);
      docs := docs + [song];
      resp := Response(201, SongJson(song));
    }

    /** `PUT /:id`: the store first casts the identifier (`castFault` is
        the cast error of a malformed one), then trims and validates the
        fields the body carries, and only then reaches the collection
        (`storeFault` is a failure there); the song is looked up and
        updated. Every error answers 400 with its message. */
    method UpdateSong(id: string, body: SongBody, now: int, castFault: Option<StoreError>, storeFault: Option<StoreError>)
      returns (resp: Response)
      requires Valid()
      modifies this
      ensures Valid()
      ensures castFault.Some? ==> resp == Response(400, Message(castFault.value.message)) && docs == old(docs)
      ensures castFault.None? && ValidateUpdate(body).Failure? ==>
        resp == Response(400, ValidationFailed(ValidateUpdate(body).error)) && docs == old(docs)
      ensures castFault.None? && ValidateUpdate(body).Success? && storeFault.Some? ==>
        resp == Response(400, Message(storeFault.value.message)) && docs == old(docs)
      ensures castFault.None? && ValidateUpdate(body).Success? && storeFault.None? ==>
        var i := Locate(old(docs), id);
        if i == -1 then
          resp == NotFound && docs == old(docs)
        else
          var song := Applied(old(docs)[i], ValidateUpdate(body).value, now);
          resp == Response(200, SongJson(song)) && docs == old(docs)[i := song]
    {
      if castFault.Some? {
        return Response(400, Message(castFault.value.message));
      }
      var validated := ValidateUpdate(body);
      if validated.Failure? {
        return Response(400, ValidationFailed(validated.error));
      }
      if storeFault.Some? {
        return Response(400, Message(storeFault.value.message));
      }
      var i := Locate(docs, id);
      if i == -1 {
        return NotFound;
      }
      var song := Applied(docs[i], validated.value, now);
      EveryAt(docs, WellFormed, i);
      ValidatedUpdateKeepsWellFormed(docs[i], body, now);
      ReplaceKeepsConsistent(docs, i, song);
      docs := docs[i := song];
      resp := Response(200, SongJson(song));
    }

    /** `DELETE /:id`: the song is removed and returned with a message. */
    method DeleteSong(id: string, fault: Option<StoreError>) returns (resp: Response)
      requires Valid()
      modifies this
      ensures Valid()
      ensures fault.Some? ==> resp == Response(500, Message(fault.value.message)) && docs == old(docs)
      ensures fault.None? ==>
        var i := Locate(old(docs), id);
        if i == -1 then
          resp == NotFound && docs == old(docs)
        else
          && resp == Response(200, Deleted("Song deleted successfully", old(docs)[i]))
          && docs == RemoveAt(old(docs), i)
          && Locate(docs, id) == -1
    {
      if fault.Some? {
        return Response(500, Message(fault.value.message));
      }
      var i := Locate(docs, id);
      if i == -1 {
        return NotFound;
      }
      var song := docs[i];
      RemoveKeepsConsistent(docs, i);
      docs := RemoveAt(docs, i);
      resp := Response(200, Deleted("Song deleted successfully", song));
    }

    /** `GET /stats`. */
    method GetStatistics(fault: Option<StoreError>) returns (resp: Response)
      ensures fault.Some? ==> resp == Response(500, Message("Failed to get statistics: " + ErrorText(fault.value)))
      ensures fault.None? ==> resp == Response(200, StatsJson(SongService.ComputeStatistics(docs)))
    {
      var stats := SongService.GetStatistics(docs, fault);
      if stats.Failure? {
        return Response(500, Message(stats.error));
      }
      resp := Response(200, StatsJson(stats.value));
    }
  }
}

=== FILE: song_filters.dfy ===
/**
 * The filter hook of the song list view. The filters live in the URL query
 * string (`FilterQuery.params`); every update function builds a patch and
 * hands it to the query-state setter, in which `null` clears a key. Reading
 * applies the declared defaults and normalises the sort field and direction.
 */
module SongFilterHook {
  import opened Types
  import opened FilterPatch
  import SongHelpers

  /** The free-text keys, whose default is the empty string. */
  const TextKeys: set<FilterKey> := {Search, Artist, Album, Genre}

  const AllKeys: set<FilterKey> := {Search, Artist, Album, Genre, SortBy, SortOrder, Page, Limit}

  /** A string-valued query parameter with its default. A value of another
      kind reads as the default. */
  function TextParam(params: map<FilterKey, Value>, key: FilterKey, default: string): string {
    if key in params && params[key].Text? then params[key].s else default
  }

  /** An integer-valued query parameter with its default. */
  function IntParam(params: map<FilterKey, Value>, key: FilterKey, default: int): int {
    if key in params && params[key].Number? then params[key].n else default
  }

  /** A free-text filter as reported: the empty string reads as absent. */
  function TextFilter(value: string): Value {
    if value != "" then Text(value) else Undefined
  }

  /** The value the hook reports for one key. */
  function DerivedValue(params: map<FilterKey, Value>, key: FilterKey): Value {
    match key
    case SortBy => Text(SongHelpers.ValidateSortField(TextParam(params, SortBy, "createdAt")))
    case SortOrder => Text(SongHelpers.ValidateSortOrder(TextParam(params, SortOrder, "desc")))
    case Page => Number(IntParam(params, Page, 1))
    case Limit => Number(IntParam(params, Limit, 10))
    case _ => TextFilter(TextParam(params, key, ""))
  }

  /** The `filters` object the hook returns for the given query state. */
  function DeriveFilters(params: map<FilterKey, Value>): (r: map<FilterKey, Value>)
    ensures r.Keys == AllKeys
    ensures r[SortBy].Text? && r[SortBy].s in SortFields
    ensures r[SortOrder].Text? && r[SortOrder].s in SortOrders
    ensures forall k :: k in TextKeys ==>
      (r[k] == Undefined <==> TextParam(params, k, "") == "") &&
      (r[k] != Undefined ==> r[k] == Text(TextParam(params, k, "")))
    ensures r[Page] == Number(IntParam(params, Page, 1))
    ensures r[Limit] == Number(IntParam(params, Limit, 10))
  {
    map k | k in AllKeys :: DerivedValue(params, k)
  }

  /** `null`, `""` and `undefined` all become `null`. */
  function CleanValue(v: Value): Value {
    if v == Null || v == Text("") || v == Undefined then Null else v
  }

  /** The cleaning done by `updateFilters` before writing. */
  function CleanUpdates(updates: map<FilterKey, Value>): (r: map<FilterKey, Value>)
    ensures r.Keys == updates.Keys
    ensures forall k :: k in r ==> (r[k] == Null <==> updates[k] in {Null, Undefined, Text("")})
    ensures forall k :: k in r && r[k] != Null ==> r[k] == updates[k]
  {
    map k | k in updates :: CleanValue(updates[k])
  }

  /** Cleaning an already cleaned patch changes nothing. */
  lemma CleanUpdatesIdempotent(updates: map<FilterKey, Value>)
    ensures CleanUpdates(CleanUpdates(updates)) == CleanUpdates(updates)
  {
  }

  /** The patch `updateFilter` writes. */
  function UpdateFilterPatch(key: FilterKey, value: Value): (r: map<FilterKey, Value>)
    ensures r.Keys == {key}
    ensures r[key] == Null <==> value in {Null, Undefined, Text("")}
    ensures r[key] != Null ==> r[key] == value
  {
    if value == Null || value == Text("") || value == Undefined then map[key := Null] else map[key := value]
  }

  /** `updateFilter` on one key writes what `updateFilters` would. */
  lemma UpdateFilterAgreesWithUpdateFilters(key: FilterKey, value: Value)
    ensures UpdateFilterPatch(key, value) == CleanUpdates(map[key := value])
  {
  }

  /** The patch `resetFilters` writes. */
  const ResetPatch: map<FilterKey, Value> := map[
    Search := Null, Artist := Null, Album := Null, Genre := Null,
    SortBy := Text("createdAt"), SortOrder := Text("desc"), Page := Number(1), Limit := Number(10)]

  /** The filters the hook reports for an empty query string. */
  const DefaultFilters: map<FilterKey, Value> := map[
    Search := Undefined, Artist := Undefined, Album := Undefined, Genre := Undefined,
    SortBy := Text("createdAt"), SortOrder := Text("desc"), Page := Number(1), Limit := Number(10)]

  /** Whatever the query state was, a reset brings the reported filters back to
      exactly the declared defaults. */
  lemma {:induction false} ResetRestoresDefaults(params: map<FilterKey, Value>)
    ensures DeriveFilters(Merged(params, ResetPatch)) == DefaultFilters
    ensures DeriveFilters(map[]) == DefaultFilters
  {
    ResetClearsText(params);
    ReportsDefaults(Merged(params, ResetPatch));
    ReportsDefaults(map[]);
  }

  /** Every key of the query state reads as its declared default. */
  predicate ReadsAsDefaults(params: map<FilterKey, Value>) {
    && (forall k :: k in TextKeys ==> TextParam(params, k, "") == "")
    && TextParam(params, SortBy, "createdAt") == "createdAt"
    && TextParam(params, SortOrder, "desc") == "desc"
    && IntParam(params, Page, 1) == 1 && IntParam(params, Limit, 10) == 10
  }

  /** After a reset no free-text key is left in the query state and the other
      keys hold their defaults. */
  lemma ResetClearsText(params: map<FilterKey, Value>)
    ensures var reset := Merged(params, ResetPatch);
      && (forall k :: k in TextKeys ==> k !in reset)
      && ReadsAsDefaults(reset)
  {
    ResetPatchEntries();
  }

  /** The reset patch clears the free-text keys and writes the defaults of
      the others. */
  lemma ResetPatchEntries()
    ensures forall k :: k in TextKeys ==> k in ResetPatch && IsNullish(ResetPatch[k])
    ensures ResetPatch.Keys == AllKeys
    ensures ResetPatch[SortBy] == Text("createdAt") && ResetPatch[SortOrder] == Text("desc")
    ensures ResetPatch[Page] == Number(1) && ResetPatch[Limit] == Number(10)
  {
  }

  /** A query state that reads as the defaults on every key reports the
      default filters. */
  lemma ReportsDefaults(params: map<FilterKey, Value>)
    requires ReadsAsDefaults(params)
    ensures DeriveFilters(params) == DefaultFilters
  {
    assert DefaultFilters.Keys == AllKeys;
    forall k | k in AllKeys ensures DerivedValue(params, k) == DefaultFilters[k] {
    }
  }

  /** The patch `updateSearchImmediate` writes: an empty search clears the key. */
  function SearchPatch(value: string): (r: map<FilterKey, Value>)
    ensures r.Keys == {Search}
    ensures r[Search] == if value == "" then Null else Text(value)
  {
    map[Search := if value != "" then Text(value) else Null]
  }

  /** The patch `updatePage` writes. */
  function PagePatch(page: int): (r: map<FilterKey, Value>)
    ensures r.Keys == {Page} && r[Page] == Number(page)
  {
    map[Page := Number(page)]
  }

  /** The patch `updatePageSize` writes: a new page size always starts again
      at page 1. */
  function PageSizePatch(limit: int): (r: map<FilterKey, Value>)
    ensures r.Keys == {Limit, Page}
    ensures r[Limit] == Number(limit) && r[Page] == Number(1)
  {
    map[Limit := Number(limit), Page := Number(1)]
  }

  /** The patch `updateSort` writes: page 1 always, and the direction only
      when one (a non-empty string) is given. */
  function SortPatch(sortBy: string, sortOrder: Option<string>): (r: map<FilterKey, Value>)
    ensures r.Keys == if IsTruthy(sortOrder) then {SortBy, SortOrder, Page} else {SortBy, Page}
    ensures r[SortBy] == Text(sortBy) && r[Page] == Number(1)
    ensures IsTruthy(sortOrder) ==> r[SortOrder] == Text(sortOrder.value)
  {
    map[SortBy := Text(sortBy), Page := Number(1)]
      + (if IsTruthy(sortOrder) then map[SortOrder := Text(sortOrder.value)] else map[])
  }

  /** What the client store's filters hold after it receives the hook's
      filters in a fetch request: the sort field and direction are always
      valid, page and limit are always present, and a free-text key is
      present exactly when it is non-empty. */
  lemma {:induction false} StoreFiltersAfterFetch(storeFilters: map<FilterKey, Value>, params: map<FilterKey, Value>)
    ensures var after := Merged(storeFilters, DeriveFilters(params));
      && SortBy in after && after[SortBy].Text? && after[SortBy].s in SortFields
      && SortOrder in after && after[SortOrder].Text? && after[SortOrder].s in SortOrders
      && Page in after && Limit in after
      && forall k :: k in TextKeys ==> (k in after <==> TextParam(params, k, "") != "")
  {
    var derived := DeriveFilters(params);
    var after := Merged(storeFilters, derived);
    forall k | k in TextKeys ensures k in after <==> TextParam(params, k, "") != "" {
      assert k in derived;
    }
  }

  /** The hook's state: the URL query parameters, and whether the first
      render's effect has run. */
  class FilterQuery {
    var params: map<FilterKey, Value>
    var isInitialMount: bool

    constructor (initial: map<FilterKey, Value>)
      ensures params == initial && isInitialMount
    {
      params := initial;
      isInitialMount := true;
    }

    /** The `filters` object the hook currently returns. */
    function Filters(): map<FilterKey, Value>
      reads this
    {
      DeriveFilters(params)
    }

    /** The mount effect: the flag is cleared once, and stays cleared. */
    method MountEffect()
      modifies this`isInitialMount
      ensures !isInitialMount
    {
      if isInitialMount {
        isInitialMount := false;
      }
    }

    /** The query-state setter: `null` or `undefined` clears a key, any
        other value is written, unmentioned keys stay. */
    method SetFilters(patch: map<FilterKey, Value>)
      modifies this`params
      ensures params == Merged(old(params), patch)
    {
      params := Merged(params, patch);
    }

    method UpdateFilter(key: FilterKey, value: Value)
      modifies this`params
      ensures params == Merged(old(params), UpdateFilterPatch(key, value))
      ensures value in {Null, Undefined, Text("")} ==> key !in params
    {
      if value == Null || value == Text("") || value == Undefined {
        SetFilters(map[key := Null]);
      } else {
        SetFilters(map[key := value]);
      }
    }

    method UpdateFilters(updates: map<FilterKey, Value>)
      modifies this`params
      ensures params == Merged(old(params), CleanUpdates(updates))
    {
      SetFilters(CleanUpdates(updates));
    }

    method ResetFilters()
      modifies this`params
      ensures params == Merged(old(params), ResetPatch)
      ensures Filters() == DefaultFilters
    {
      SetFilters(ResetPatch);
      ResetRestoresDefaults(old(params));
    }

    method UpdateSearchImmediate(value: string)
      modifies this`params
      ensures params == Merged(old(params), SearchPatch(value))
      ensures Filters()[Search] == if value == "" then Undefined else Text(value)
    {
      SetFilters(SearchPatch(value));
    }

    method UpdatePage(page: int)
      modifies this`params
      ensures params == Merged(old(params), PagePatch(page))
      ensures Filters()[Page] == Number(page)
    {
      SetFilters(PagePatch(page));
    }

    method UpdatePageSize(limit: int)
      modifies this`params
      ensures params == Merged(old(params), PageSizePatch(limit))
      ensures Filters()[Limit] == Number(limit) && Filters()[Page] == Number(1)
    {
      SetFilters(PageSizePatch(limit));
    }

    method UpdateSort(sortBy: string, sortOrder: Option<string>)
      modifies this`params
      ensures params == Merged(old(params), SortPatch(sortBy, sortOrder))
      ensures Filters()[Page] == Number(1)
      ensures Filters()[SortBy] == Text(SongHelpers.ValidateSortField(sortBy))
    {
      SetFilters(SortPatch(sortBy, sortOrder));
    }
  }
}

=== FILE: song_helpers.dfy ===
/**
 * The pure helpers of the song list view: the "showing from-to" arithmetic,
 * the whitelists for the sort field and direction, the display projection of
 * a song, change detection between filter objects, and the decisions taken
 * by the filter-change and page-change handlers (each modelled as the update
 * the handler sends, or none).
 */
module SongHelpers {
  import opened Types
  import opened FilterPatch
  import JsStrings

  datatype PaginationInfo = PaginationInfo(hasPrevPage: bool, hasNextPage: bool, from: int, to: int)

  /** `songsLength` is falsy exactly when it is zero. */
  function CalculatePaginationInfo(currentPage: int, totalPages: int, pageSize: int, songsLength: int, totalItems: int): (r: PaginationInfo)
    ensures r.hasPrevPage <==> currentPage > 1
    ensures r.hasNextPage <==> currentPage < totalPages
    ensures songsLength == 0 ==> r.from == 0 && r.to == 0
    ensures songsLength != 0 ==> r.from == (currentPage - 1) * pageSize + 1 && r.to == r.from + songsLength - 1
    ensures songsLength > 0 && currentPage >= 1 && pageSize >= 0 ==> 1 <= r.from <= r.to
  {
    var from := if songsLength != 0 then (currentPage - 1) * pageSize + 1 else 0;
    var to := if songsLength != 0 then (currentPage - 1) * pageSize + songsLength else 0;
    PaginationInfo(currentPage > 1, currentPage < totalPages, from, to)
  }

  /** The total item count is passed in but never used. */
  lemma PaginationInfoIgnoresTotal(currentPage: int, totalPages: int, pageSize: int, songsLength: int, totalItems: int, otherTotal: int)
    ensures CalculatePaginationInfo(currentPage, totalPages, pageSize, songsLength, totalItems)
         == CalculatePaginationInfo(currentPage, totalPages, pageSize, songsLength, otherTotal)
  {
  }

  /** Consecutive full pages tile the item positions: the last position of a
      full page is followed by the first position of the next page. */
  lemma PagesAreContiguous(page: int, pageSize: int, totalPages: int, totalItems: int)
    requires pageSize > 0
    ensures CalculatePaginationInfo(page, totalPages, pageSize, pageSize, totalItems).to + 1
         == CalculatePaginationInfo(page + 1, totalPages, pageSize, pageSize, totalItems).from
  {
  }

  function ValidateSortField(sortBy: string): (r: string)
    ensures r in SortFields
    ensures sortBy in SortFields ==> r == sortBy
    ensures sortBy !in SortFields ==> r == "createdAt"
  {
    if sortBy in SortFields then sortBy else "createdAt"
  }

  /** Validating a validated field changes nothing. */
  lemma ValidateSortFieldIdempotent(sortBy: string)
    ensures ValidateSortField(ValidateSortField(sortBy)) == ValidateSortField(sortBy)
  {
  }

  /** The check is an exact, case-sensitive comparison. */
  function ValidateSortOrder(sortOrder: string): (r: string)
    ensures r in SortOrders
    ensures sortOrder in SortOrders ==> r == sortOrder
    ensures sortOrder !in SortOrders ==> r == "desc"
  {
    if sortOrder in SortOrders then sortOrder else "desc"
  }

  /** Upper-case spellings are not recognised and fall back to "desc". */
  lemma ValidateSortOrderCaseSensitive()
    ensures ValidateSortOrder("ASC") == "desc"
    ensures ValidateSortOrder("asc") == "asc"
  {
  }

  datatype DisplaySong = DisplaySong(id: Option<string>, title: string, artist: string, album: string, genre: string)

  function FormatSongForDisplay(song: Song): (r: DisplaySong)
    ensures r.id == song.id
    ensures r.title == song.title && r.artist == song.artist && r.album == song.album && r.genre == song.genre
  {
    DisplaySong(song.id, song.title, song.artist, song.album, song.genre)
  }

  /** True when some key of `newFilters` holds a value that differs, under
      strict equality, from the value the key reads as in `currentFilters`. */
  predicate HasFiltersChanged(currentFilters: map<FilterKey, Value>, newFilters: map<FilterKey, Value>)
    ensures HasFiltersChanged(currentFilters, newFilters) ==> |newFilters| > 0
  {
    exists key | key in newFilters :: Read(currentFilters, key) != newFilters[key]
  }

  /** Keys present only in the current filters do not matter, and an empty
      set of new filters never counts as a change. */
  lemma HasFiltersChangedLooksOnlyAtNewKeys(current: map<FilterKey, Value>, other: map<FilterKey, Value>, newFilters: map<FilterKey, Value>)
    requires forall k :: k in newFilters ==> Read(current, k) == Read(other, k)
    ensures HasFiltersChanged(current, newFilters) == HasFiltersChanged(other, newFilters)
    ensures !HasFiltersChanged(current, map[])
  {
  }

  /** Once a patch without `null` values has been merged into the filters,
      the same patch no longer counts as a change; with a `null` value it
      always does, because the merge deletes that key and it then reads as
      `undefined`. */
  lemma {:induction false} HasFiltersChangedAfterMerge(current: map<FilterKey, Value>, patch: map<FilterKey, Value>)
    ensures (forall k :: k in patch ==> patch[k] != Null) ==> !HasFiltersChanged(Merged(current, patch), patch)
    ensures (exists k :: k in patch && patch[k] == Null) ==> HasFiltersChanged(Merged(current, patch), patch)
  {
    var merged := Merged(current, patch);
    if forall k :: k in patch ==> patch[k] != Null {
      forall k | k in patch ensures Read(merged, k) == patch[k] {
        if patch[k] == Undefined {
          assert k !in merged;
        }
      }
    } else {
      var k :| k in patch && patch[k] == Null;
      assert k !in merged;
      assert Read(merged, k) != patch[k];
    }
  }

  /** The value a filter input sends for the typed text: the trimmed text,
      or `null` when nothing but whitespace was typed. */
  function TrimmedValue(input: string): (v: Value)
    ensures v == Null <==> (forall i :: 0 <= i < |input| ==> JsStrings.IsWhitespace(input[i]))
    ensures v != Null ==> v == Text(JsStrings.Trim(input)) && JsStrings.Trim(input) != ""
  {
    JsStrings.TrimEmptyIff(input);
    var value := JsStrings.Trim(input);
    if value != "" then Text(value) else Null
  }

  /** The update the artist, album or genre filter input sends: the trimmed
      text, or `null` when nothing but whitespace was typed, and always page 1. */
  function FilterChangeUpdate(key: FilterKey, input: string): (r: map<FilterKey, Value>)
    requires key == Artist || key == Album || key == Genre
    ensures r.Keys == {key, Page}
    ensures r[Page] == Number(1)
    ensures r[key] == TrimmedValue(input)
  {
    map[key := TrimmedValue(input), Page := Number(1)]
  }

  /** Typing the trimmed text sends the same value as the text itself. */
  lemma {:induction false} TrimmedValueStable(input: string)
    ensures TrimmedValue(JsStrings.Trim(input)) == TrimmedValue(input)
  {
    JsStrings.TrimIdempotent(input);
  }

  /** Two inputs that send the same value send the same update. */
  lemma FilterChangeUpdateCongruent(key: FilterKey, a: string, b: string)
    requires key == Artist || key == Album || key == Genre
    requires TrimmedValue(a) == TrimmedValue(b)
    ensures FilterChangeUpdate(key, a) == FilterChangeUpdate(key, b)
  {
  }

  /** Typing the same text again, or the trimmed text, sends the same update. */
  lemma FilterChangeUpdateTrimStable(key: FilterKey, input: string)
    requires key == Artist || key == Album || key == Genre
    ensures FilterChangeUpdate(key, JsStrings.Trim(input)) == FilterChangeUpdate(key, input)
  {
    TrimmedValueStable(input);
    FilterChangeUpdateCongruent(key, JsStrings.Trim(input), input);
  }

  /** The page-change guard: `Some(p)` when `updatePage(p)` is called, `None`
      when the request is ignored. The number of pages is never consulted. */
  function PageChange(currentPage: int, totalPages: int, nextPage: int): (r: Option<int>)
    ensures r.None? <==> nextPage < 1 || nextPage == currentPage
    ensures r.Some? ==> r.value == nextPage && r.value >= 1 && r.value != currentPage
  {
    if nextPage < 1 || nextPage == currentPage then None else Some(nextPage)
  }

  /** Moving past the last page is not prevented by the guard. */
  lemma PageChangeIgnoresTotalPages(currentPage: int, totalPages: int, otherTotal: int, nextPage: int)
    ensures PageChange(currentPage, totalPages, nextPage) == PageChange(currentPage, otherTotal, nextPage)
  {
  }
}

=== FILE: song_model.dfy ===
/**
 * The server's song document schema: four required string fields, each
 * trimmed before it is validated, plus an identifier and the creation and
 * update timestamps the store assigns. A string field fails `required` when
 * it is absent or empty after trimming.
 */
module SongModel {
  import opened Types
  import JsStrings

  /** A stored song. Timestamps are store clock readings. */
  datatype StoredSong = StoredSong(
    id: string,
    title: string,
    artist: string,
    album: string,
    genre: string,
    createdAt: int,
    updatedAt: int)

  /** The four descriptive fields of a request body; `None` is a field the
      body does not carry. */
  datatype SongBody = SongBody(title: Option<string>, artist: Option<string>, album: Option<string>, genre: Option<string>)

  /** The descriptive fields after casting: all four present and trimmed. */
  datatype SongFields = SongFields(title: string, artist: string, album: string, genre: string)

  /** The trim setter followed by the `required` validator for one field:
      the validated value, or the field's error message. */
  function RequiredTrimmed(value: Option<string>, message: string): (r: Result<string, string>)
    ensures r.Success? <==> value.Some? && JsStrings.Trim(value.value) != ""
    ensures r.Success? ==> r.value == JsStrings.Trim(value.value)
    ensures r.Failure? ==> r.error == message
  {
    if value.Some? && JsStrings.Trim(value.value) != "" then Success(JsStrings.Trim(value.value)) else Failure(message)
  }

  /** The error message of a failed field check, if any. */
  function ErrorOf(r: Result<string, string>): seq<string> {
    if r.Failure? then [r.error] else []
  }

  /** The four field checks report exactly the messages of the fields that
      failed, each a required-field message. */
  lemma {:induction false} ReportedFields(title: Result<string, string>, artist: Result<string, string>,
                                          album: Result<string, string>, genre: Result<string, string>)
    requires title.Failure? ==> title.error == "Title is required"
    requires artist.Failure? ==> artist.error == "Artist is required"
    requires album.Failure? ==> album.error == "Album is required"
    requires genre.Failure? ==> genre.error == "Genre is required"
    ensures var e := ErrorOf(title) + ErrorOf(artist) + ErrorOf(album) + ErrorOf(genre);
      && (e == [] <==> title.Success? && artist.Success? && album.Success? && genre.Success?)
      && (forall m :: m in e ==> m in RequiredMessages)
      && ("Title is required" in e <==> title.Failure?)
      && ("Artist is required" in e <==> artist.Failure?)
      && ("Album is required" in e <==> album.Failure?)
      && ("Genre is required" in e <==> genre.Failure?)
  {
    var e := ErrorOf(title) + ErrorOf(artist) + ErrorOf(album) + ErrorOf(genre);
    forall m ensures m in e <==> (m in ErrorOf(title) || m in ErrorOf(artist) || m in ErrorOf(album) || m in ErrorOf(genre)) {
    }
  }

  /** Validating a new document: the field values, or the messages of all
      failing fields in schema order. */
  function ValidateNew(body: SongBody): (r: Result<SongFields, seq<string>>)
    ensures r.Success? <==>
      && body.title.Some? && JsStrings.Trim(body.title.value) != ""
      && body.artist.Some? && JsStrings.Trim(body.artist.value) != ""
      && body.album.Some? && JsStrings.Trim(body.album.value) != ""
      && body.genre.Some? && JsStrings.Trim(body.genre.value) != ""
    ensures r.Success? ==> r.value == SongFields(
      JsStrings.Trim(body.title.value), JsStrings.Trim(body.artist.value),
      JsStrings.Trim(body.album.value), JsStrings.Trim(body.genre.value))
    ensures r.Failure? ==> r.error != [] && forall m :: m in r.error ==> m in RequiredMessages
    ensures r.Failure? ==>
      && ("Title is required" in r.error <==> body.title.None? || JsStrings.Trim(body.title.value) == "")
      && ("Artist is required" in r.error <==> body.artist.None? || JsStrings.Trim(body.artist.value) == "")
      && ("Album is required" in r.error <==> body.album.None? || JsStrings.Trim(body.album.value) == "")
      && ("Genre is required" in r.error <==> body.genre.None? || JsStrings.Trim(body.genre.value) == "")
  {
    var title := RequiredTrimmed(body.title, "Title is required");
    var artist := RequiredTrimmed(body.artist, "Artist is required");
    var album := RequiredTrimmed(body.album, "Album is required");
    var genre := RequiredTrimmed(body.genre, "Genre is required");
    var errors := ErrorOf(title) + ErrorOf(artist) + ErrorOf(album) + ErrorOf(genre);
    ReportedFields(title, artist, album, genre);
    if errors == [] then Success(SongFields(title.value, artist.value, album.value, genre.value))
    else Failure(errors)
  }

  const RequiredMessages: set<string> := {"Title is required", "Artist is required", "Album is required", "Genre is required"}

  /** Validating an update: only the fields the body carries are cast and
      checked; the result is the body with those fields trimmed. */
  function ValidateUpdate(body: SongBody): (r: Result<SongBody, seq<string>>)
    ensures r.Success? <==>
      && (body.title.Some? ==> JsStrings.Trim(body.title.value) != "")
      && (body.artist.Some? ==> JsStrings.Trim(body.artist.value) != "")
      && (body.album.Some? ==> JsStrings.Trim(body.album.value) != "")
      && (body.genre.Some? ==> JsStrings.Trim(body.genre.value) != "")
    ensures r.Success? ==>
      && r.value.title == (if body.title.Some? then Some(JsStrings.Trim(body.title.value)) else None)
      && r.value.artist == (if body.artist.Some? then Some(JsStrings.Trim(body.artist.value)) else None)
      && r.value.album == (if body.album.Some? then Some(JsStrings.Trim(body.album.value)) else None)
      && r.value.genre == (if body.genre.Some? then Some(JsStrings.Trim(body.genre.value)) else None)
    ensures r.Failure? ==> r.error != [] && forall m :: m in r.error ==> m in RequiredMessages
    ensures r.Failure? ==>
      && ("Title is required" in r.error <==> body.title.Some? && JsStrings.Trim(body.title.value) == "")
      && ("Artist is required" in r.error <==> body.artist.Some? && JsStrings.Trim(body.artist.value) == "")
      && ("Album is required" in r.error <==> body.album.Some? && JsStrings.Trim(body.album.value) == "")
      && ("Genre is required" in r.error <==> body.genre.Some? && JsStrings.Trim(body.genre.value) == "")
  {
    var title := if body.title.Some? then RequiredTrimmed(body.title, "Title is required") else Success("");
    var artist := if body.artist.Some? then RequiredTrimmed(body.artist, "Artist is required") else Success("");
    var album := if body.album.Some? then RequiredTrimmed(body.album, "Album is required") else Success("");
    var genre := if body.genre.Some? then RequiredTrimmed(body.genre, "Genre is required") else Success("");
    var errors := ErrorOf(title) + ErrorOf(artist) + ErrorOf(album) + ErrorOf(genre);
    ReportedFields(title, artist, album, genre);
    if errors == [] then
      Success(SongBody(
        if body.title.Some? then Some(title.value) else None,
        if body.artist.Some? then Some(artist.value) else None,
        if body.album.Some? then Some(album.value) else None,
        if body.genre.Some? then Some(genre.value) else None))
    else Failure(errors)
  }

  /** A stored song's descriptive fields are trimmed and non-empty. */
  predicate WellFormed(s: StoredSong) {
    && s.title != "" && JsStrings.Trim(s.title) == s.title
    && s.artist != "" && JsStrings.Trim(s.artist) == s.artist
    && s.album != "" && JsStrings.Trim(s.album) == s.album
    && s.genre != "" && JsStrings.Trim(s.genre) == s.genre
  }

  /** Values that passed validation are trimmed and non-empty, so a song built
      from them is well formed. */
  lemma {:induction false} ValidatedFieldsWellFormed(body: SongBody, id: string, now: int)
    requires ValidateNew(body).Success?
    ensures var f := ValidateNew(body).value;
      WellFormed(StoredSong(id, f.title, f.artist, f.album, f.genre, now, now))
  {
    JsStrings.TrimIdempotent(body.title.value);
    JsStrings.TrimIdempotent(body.artist.value);
    JsStrings.TrimIdempotent(body.album.value);
    JsStrings.TrimIdempotent(body.genre.value);
  }
}

=== FILE: song_schema.dfy ===
/**
 * The song form schema: each of title, artist, album and genre is trimmed
 * and must then be at least one character long. Parsing checks every field
 * and reports one issue per failing field, in field order; a successful
 * parse returns the trimmed values.
 */
module SongSchema {
  import opened Types
  import JsStrings

  datatype FormField = TitleField | ArtistField | AlbumField | GenreField

  datatype Issue = Issue(path: FormField, message: string)

  function RequiredMessage(field: FormField): string {
    match field
    case TitleField => "Song title is required"
    case ArtistField => "Artist name is required"
    case AlbumField => "Album name is required"
    case GenreField => "Genre is required"
  }

  /** The issue a single field contributes, if any. */
  function FieldIssues(field: FormField, value: string): (r: seq<Issue>)
    ensures r == [] <==> JsStrings.Trim(value) != ""
    ensures r != [] ==> r == [Issue(field, RequiredMessage(field))]
  {
    if |JsStrings.Trim(value)| >= 1 then [] else [Issue(field, RequiredMessage(field))]
  }

  function Trimmed(form: SongFormData): SongFormData {
    SongFormData(JsStrings.Trim(form.title), JsStrings.Trim(form.artist), JsStrings.Trim(form.album), JsStrings.Trim(form.genre))
  }

  function ParseSongForm(form: SongFormData): (r: Result<SongFormData, seq<Issue>>)
    ensures r.Success? <==>
      JsStrings.Trim(form.title) != "" && JsStrings.Trim(form.artist) != "" &&
      JsStrings.Trim(form.album) != "" && JsStrings.Trim(form.genre) != ""
    ensures r.Success? ==> r.value == Trimmed(form)
    ensures r.Failure? ==> (r.error ==
      FieldIssues(TitleField, form.title) + FieldIssues(ArtistField, form.artist) +
      FieldIssues(AlbumField, form.album) + FieldIssues(GenreField, form.genre))
    ensures r.Failure? ==> r.error != []
  {
    var issues := FieldIssues(TitleField, form.title) + FieldIssues(ArtistField, form.artist)
      + FieldIssues(AlbumField, form.album) + FieldIssues(GenreField, form.genre);
    if issues == [] then Success(Trimmed(form)) else Failure(issues)
  }

  /** Each required-field message appears exactly when that field is blank. */
  lemma ParseReportsBlankFields(form: SongFormData)
    ensures var r := ParseSongForm(form);
      && (Issue(TitleField, "Song title is required") in IssuesOf(r) <==> JsStrings.Trim(form.title) == "")
      && (Issue(ArtistField, "Artist name is required") in IssuesOf(r) <==> JsStrings.Trim(form.artist) == "")
      && (Issue(AlbumField, "Album name is required") in IssuesOf(r) <==> JsStrings.Trim(form.album) == "")
      && (Issue(GenreField, "Genre is required") in IssuesOf(r) <==> JsStrings.Trim(form.genre) == "")
  {
    FieldReported(form, TitleField);
    FieldReported(form, ArtistField);
    FieldReported(form, AlbumField);
    FieldReported(form, GenreField);
  }

  function FieldValue(form: SongFormData, field: FormField): string {
    match field
    case TitleField => form.title
    case ArtistField => form.artist
    case AlbumField => form.album
    case GenreField => form.genre
  }

  /** One field's message is reported exactly when that field is blank. */
  lemma FieldReported(form: SongFormData, field: FormField)
    ensures Issue(field, RequiredMessage(field)) in IssuesOf(ParseSongForm(form))
      <==> JsStrings.Trim(FieldValue(form, field)) == ""
  {
    var x := Issue(field, RequiredMessage(field));
    var t := FieldIssues(TitleField, form.title);
    var a := FieldIssues(ArtistField, form.artist);
    var b := FieldIssues(AlbumField, form.album);
    var g := FieldIssues(GenreField, form.genre);
    assert IssuesOf(ParseSongForm(form)) == t + a + b + g;
    InConcat(t, a, b, g, x);
    assert x in t <==> field == TitleField && t != [];
    assert x in a <==> field == ArtistField && a != [];
    assert x in b <==> field == AlbumField && b != [];
    assert x in g <==> field == GenreField && g != [];
  }

  lemma InConcat(t: seq<Issue>, a: seq<Issue>, b: seq<Issue>, g: seq<Issue>, x: Issue)
    ensures x in t + a + b + g <==> x in t || x in a || x in b || x in g
  {
  }

  function IssuesOf(r: Result<SongFormData, seq<Issue>>): seq<Issue> {
    if r.Failure? then r.error else []
  }

  /** A parsed form parses again to itself. */
  lemma {:induction false} ParseIdempotent(form: SongFormData)
    requires ParseSongForm(form).Success?
    ensures ParseSongForm(ParseSongForm(form).value) == ParseSongForm(form)
  {
    JsStrings.TrimIdempotent(form.title);
    JsStrings.TrimIdempotent(form.artist);
    JsStrings.TrimIdempotent(form.album);
    JsStrings.TrimIdempotent(form.genre);
  }
}

=== FILE: song_service.dfy ===
/**
 * Catalogue statistics over the whole collection: the number of songs, the
 * number of distinct artists, albums and genres, and three group-by-count
 * lists (by genre, by artist, and by album with the artist of the album's
 * first song), each sorted by count, largest first. The collection is the
 * sequence of stored songs in the store's natural order.
 */
module SongService {
  import opened Types
  import opened SongModel
  import Sorting

  datatype GroupField = ByArtist | ByAlbum | ByGenre

  function ValueOf(s: StoredSong, f: GroupField): string {
    match f
    case ByArtist => s.artist
    case ByAlbum => s.album
    case ByGenre => s.genre
  }

  /** `distinct(field)`: the set of values the field takes. */
  function Distinct(songs: seq<StoredSong>, f: GroupField): set<string> {
    set s | s in songs :: ValueOf(s, f)
  }

  /** How many songs have value `k` in field `f`. */
  function CountOf(songs: seq<StoredSong>, f: GroupField, k: string): nat {
    if songs == [] then 0
    else (if ValueOf(songs[0], f) == k then 1 else 0) + CountOf(songs[1..], f, k)
  }

  /** The songs whose field `f` is not `k`, in their original order. */
  function Without(songs: seq<StoredSong>, f: GroupField, k: string): (r: seq<StoredSong>)
    ensures |r| == |songs| - CountOf(songs, f, k)
    ensures forall s :: s in r <==> s in songs && ValueOf(s, f) != k
  {
    if songs == [] then []
    else if ValueOf(songs[0], f) == k then Without(songs[1..], f, k)
    else [songs[0]] + Without(songs[1..], f, k)
  }

  /** The first song, in collection order, whose field `f` is `k`. */
  function FirstWith(songs: seq<StoredSong>, f: GroupField, k: string): (r: Option<StoredSong>)
    ensures r.None? <==> k !in Distinct(songs, f)
    ensures r.Some? ==> r.value in songs && ValueOf(r.value, f) == k
  {
    if songs == [] then None
    else if ValueOf(songs[0], f) == k then Some(songs[0])
    else FirstWith(songs[1..], f, k)
  }

  /** `FirstWith` finds the song at the first index that has the value. */
  lemma {:induction false} FirstWithIsFirst(songs: seq<StoredSong>, f: GroupField, k: string, i: nat)
    requires i < |songs| && ValueOf(songs[i], f) == k
    requires forall j :: 0 <= j < i ==> ValueOf(songs[j], f) != k
    ensures FirstWith(songs, f, k) == Some(songs[i])
  {
    if i > 0 {
      FirstWithIsFirst(songs[1..], f, k, i - 1);
    }
  }

  /** The record every `$group` stage builds here: the grouped value, its
      count and the artist of the group's first song. The album pipeline
      returns it as it is; the genre and artist pipelines keep only the
      value and the count (see `Categories`). */
  type Group = SongsByAlbum

  /** `$group` by field `f` with `count: { $sum: 1 }` and
      `artist: { $first: "$artist" }`, groups in order of first appearance. */
  function Groups(songs: seq<StoredSong>, f: GroupField): (r: seq<Group>)
    ensures |r| <= |songs|
    ensures forall g :: g in r ==> g.count >= 1
    decreases |songs|
  {
    if songs == [] then []
    else
      var k := ValueOf(songs[0], f);
      [SongsByAlbum(k, CountOf(songs, f, k), songs[0].artist)] + Groups(Without(songs, f, k), f)
  }

  function GroupCount(g: Group): int {
    g.count
  }

  /** The groups followed by `$sort: { count: -1 }`. */
  function Grouped(songs: seq<StoredSong>, f: GroupField): (r: seq<Group>)
    ensures Sorting.SortedDesc(r, GroupCount)
    ensures multiset(r) == multiset(Groups(songs, f))
  {
    Sorting.SortDesc(Groups(songs, f), GroupCount)
  }

  function SumCounts(gs: seq<Group>): int {
    if gs == [] then 0 else gs[0].count + SumCounts(gs[1..])
  }

  function KeySet(gs: seq<Group>): set<string> {
    set g | g in gs :: g.id
  }

  predicate DistinctKeys(gs: seq<Group>) {
    forall i, j :: 0 <= i < j < |gs| ==> gs[i].id != gs[j].id
  }

  /** Each group's count and representative artist, read off the collection. */
  predicate GroupsAgree(gs: seq<Group>, songs: seq<StoredSong>, f: GroupField) {
    forall g :: g in gs ==>
      && g.count == CountOf(songs, f, g.id)
      && FirstWith(songs, f, g.id).Some?
      && g.artist == FirstWith(songs, f, g.id).value.artist
  }

  lemma {:induction false} CountWithout(songs: seq<StoredSong>, f: GroupField, k0: string, k: string)
    requires k != k0
    ensures CountOf(Without(songs, f, k0), f, k) == CountOf(songs, f, k)
  {
    if songs != [] {
      CountWithout(songs[1..], f, k0, k);
      if ValueOf(songs[0], f) != k0 {
        assert Without(songs, f, k0)[1..] == Without(songs[1..], f, k0);
      }
    }
  }

  lemma {:induction false} FirstWithWithout(songs: seq<StoredSong>, f: GroupField, k0: string, k: string)
    requires k != k0
    ensures FirstWith(Without(songs, f, k0), f, k) == FirstWith(songs, f, k)
  {
    if songs != [] {
      FirstWithWithout(songs[1..], f, k0, k);
      if ValueOf(songs[0], f) != k0 {
        assert Without(songs, f, k0)[1..] == Without(songs[1..], f, k0);
      }
    }
  }

  lemma DistinctWithout(songs: seq<StoredSong>, f: GroupField, k0: string)
    ensures Distinct(Without(songs, f, k0), f) == Distinct(songs, f) - {k0}
  {
    var rest := Without(songs, f, k0);
    forall k | k in Distinct(songs, f) - {k0} ensures k in Distinct(rest, f) {
      var s :| s in songs && ValueOf(s, f) == k;
      assert s in rest;
    }
  }

  lemma KeySetCons(x: Group, gs: seq<Group>)
    ensures KeySet([x] + gs) == {x.id} + KeySet(gs)
  {
    assert forall g :: g in [x] + gs <==> g == x || g in gs;
  }

  lemma {:induction false} DistinctKeysCons(x: Group, gs: seq<Group>)
    ensures DistinctKeys([x] + gs) <==> x.id !in KeySet(gs) && DistinctKeys(gs)
  {
    var r := [x] + gs;
    if x.id in KeySet(gs) {
      var g :| g in gs && g.id == x.id;
      var m :| 0 <= m < |gs| && gs[m] == g;
      assert r[0].id == r[m + 1].id;
    }
    if DistinctKeys(r) {
      forall i, j | 0 <= i < j < |gs| ensures gs[i].id != gs[j].id {
        assert r[i + 1] == gs[i] && r[j + 1] == gs[j];
      }
    }
    if x.id !in KeySet(gs) && DistinctKeys(gs) {
      forall i, j | 0 <= i < j < |r| ensures r[i].id != r[j].id {
        assert r[j] == gs[j - 1] && r[j] in gs;
        if i > 0 {
          assert r[i] == gs[i - 1];
        }
      }
    }
  }

  lemma KeySetSameElements(a: seq<Group>, b: seq<Group>)
    requires multiset(a) == multiset(b)
    ensures KeySet(a) == KeySet(b)
  {
    Sorting.SameElements(a, b);
  }

  /** The groups, before sorting, have one entry per distinct value. */
  lemma {:induction false} GroupsKeys(songs: seq<StoredSong>, f: GroupField)
    ensures KeySet(Groups(songs, f)) == Distinct(songs, f)
    ensures DistinctKeys(Groups(songs, f))
    decreases |songs|
  {
    if songs != [] {
      var k := ValueOf(songs[0], f);
      var rest := Without(songs, f, k);
      var head := SongsByAlbum(k, CountOf(songs, f, k), songs[0].artist);
      GroupsKeys(rest, f);
      DistinctWithout(songs, f, k);
      assert Groups(songs, f) == [head] + Groups(rest, f);
      KeySetCons(head, Groups(rest, f));
      DistinctKeysCons(head, Groups(rest, f));
      assert k in Distinct(songs, f);
    }
  }

  /** As many groups as distinct values. */
  lemma {:induction false} GroupsLength(songs: seq<StoredSong>, f: GroupField)
    ensures |Groups(songs, f)| == |Distinct(songs, f)|
    decreases |songs|
  {
    if songs != [] {
      var k := ValueOf(songs[0], f);
      var rest := Without(songs, f, k);
      GroupsLength(rest, f);
      DistinctWithout(songs, f, k);
      assert k in Distinct(songs, f);
      assert |Distinct(rest, f)| == |Distinct(songs, f)| - 1;
    }
  }

  /** The group counts, before sorting, add up to the number of songs. */
  lemma {:induction false} GroupsSum(songs: seq<StoredSong>, f: GroupField)
    ensures SumCounts(Groups(songs, f)) == |songs|
    decreases |songs|
  {
    if songs != [] {
      var k := ValueOf(songs[0], f);
      GroupsSum(Without(songs, f, k), f);
      assert Groups(songs, f)[1..] == Groups(Without(songs, f, k), f);
    }
  }

  /** Each group, before sorting, counts its value and carries the artist of
      the value's first song. */
  lemma {:induction false} GroupsAgreeWithSongs(songs: seq<StoredSong>, f: GroupField)
    ensures GroupsAgree(Groups(songs, f), songs, f)
    decreases |songs|
  {
    if songs != [] {
      var k := ValueOf(songs[0], f);
      var rest := Without(songs, f, k);
      var head := SongsByAlbum(k, CountOf(songs, f, k), songs[0].artist);
      GroupsAgreeWithSongs(rest, f);
      GroupsKeys(rest, f);
      DistinctWithout(songs, f, k);
      assert Groups(songs, f) == [head] + Groups(rest, f);
      forall g | g in Groups(rest, f)
        ensures g.count == CountOf(songs, f, g.id)
        ensures FirstWith(songs, f, g.id).Some? && g.artist == FirstWith(songs, f, g.id).value.artist
      {
        assert g.id in KeySet(Groups(rest, f));
        CountWithout(songs, f, k, g.id);
        FirstWithWithout(songs, f, k, g.id);
      }
      assert FirstWith(songs, f, k) == Some(songs[0]);
    }
  }

  lemma {:induction false} SumInsert(x: Group, s: seq<Group>)
    requires Sorting.SortedDesc(s, GroupCount)
    ensures SumCounts(Sorting.Insert(x, s, GroupCount)) == x.count + SumCounts(s)
  {
    if s != [] && GroupCount(x) < GroupCount(s[0]) {
      assert Sorting.SortedDesc(s[1..], GroupCount);
      SumInsert(x, s[1..]);
    }
  }

  lemma {:induction false} SumSorted(gs: seq<Group>)
    ensures SumCounts(Sorting.SortDesc(gs, GroupCount)) == SumCounts(gs)
  {
    if gs != [] {
      SumSorted(gs[1..]);
      SumInsert(gs[0], Sorting.SortDesc(gs[1..], GroupCount));
    }
  }

  lemma {:induction false} InsertKeepsDistinctKeys(x: Group, s: seq<Group>)
    requires Sorting.SortedDesc(s, GroupCount)
    requires DistinctKeys(s) && x.id !in KeySet(s)
    ensures DistinctKeys(Sorting.Insert(x, s, GroupCount))
  {
    if s == [] || GroupCount(x) >= GroupCount(s[0]) {
      DistinctKeysCons(x, s);
    } else {
      var tail := s[1..];
      assert s == [s[0]] + tail;
      DistinctKeysCons(s[0], tail);
      KeySetCons(s[0], tail);
      assert Sorting.SortedDesc(tail, GroupCount);
      InsertKeepsDistinctKeys(x, tail);
      var rest := Sorting.Insert(x, tail, GroupCount);
      KeySetSameElements(rest, [x] + tail);
      KeySetCons(x, tail);
      DistinctKeysCons(s[0], rest);
    }
  }

  lemma {:induction false} SortKeepsDistinctKeys(gs: seq<Group>)
    requires DistinctKeys(gs)
    ensures DistinctKeys(Sorting.SortDesc(gs, GroupCount))
  {
    if gs != [] {
      var tail := Sorting.SortDesc(gs[1..], GroupCount);
      assert gs == [gs[0]] + gs[1..];
      DistinctKeysCons(gs[0], gs[1..]);
      SortKeepsDistinctKeys(gs[1..]);
      KeySetSameElements(tail, gs[1..]);
      InsertKeepsDistinctKeys(gs[0], tail);
    }
  }

  /** The sorted groups: one per distinct value, each counted exactly, with
      the artist of the value's first song, counts summing to the number of
      songs, largest count first. */
  lemma {:induction false} GroupedExact(songs: seq<StoredSong>, f: GroupField)
    ensures var gs := Grouped(songs, f);
      && |gs| == |Distinct(songs, f)|
      && KeySet(gs) == Distinct(songs, f)
      && DistinctKeys(gs)
      && SumCounts(gs) == |songs|
      && GroupsAgree(gs, songs, f)
      && Sorting.SortedDesc(gs, GroupCount)
  {
    var groups := Groups(songs, f);
    var gs := Grouped(songs, f);
    GroupsKeys(songs, f);
    GroupsLength(songs, f);
    GroupsSum(songs, f);
    GroupsAgreeWithSongs(songs, f);
    Sorting.SameElements(gs, groups);
    KeySetSameElements(gs, groups);
    SumSorted(groups);
    SortKeepsDistinctKeys(groups);
  }

  /** The `{ _id, count }` form of the genre and artist lists. */
  function Categories(gs: seq<Group>): (r: seq<SongsByCategory>)
    ensures |r| == |gs|
    ensures forall i :: 0 <= i < |gs| ==> r[i] == SongsByCategory(gs[i].id, gs[i].count)
  {
    if gs == [] then [] else [SongsByCategory(gs[0].id, gs[0].count)] + Categories(gs[1..])
  }

  function CategoryTotal(cs: seq<SongsByCategory>): int {
    if cs == [] then 0 else cs[0].count + CategoryTotal(cs[1..])
  }

  lemma {:induction false} CategoryTotalMatches(gs: seq<Group>)
    ensures CategoryTotal(Categories(gs)) == SumCounts(gs)
  {
    if gs != [] {
      CategoryTotalMatches(gs[1..]);
    }
  }

  /** The statistics object: the song count, the distinct counts of each
      field, and one group per distinct value in each list. */
  function ComputeStatistics(songs: seq<StoredSong>): (st: Statistics)
    ensures st.totalSongs == |songs|
    ensures st.totalArtists == |Distinct(songs, ByArtist)|
    ensures st.totalAlbums == |Distinct(songs, ByAlbum)|
    ensures st.totalGenres == |Distinct(songs, ByGenre)|
    ensures |st.songsByGenre| == st.totalGenres
    ensures |st.songsByArtist| == st.totalArtists
    ensures |st.songsByAlbum| == st.totalAlbums
  {
    GroupedExact(songs, ByGenre);
    GroupedExact(songs, ByArtist);
    GroupedExact(songs, ByAlbum);
    Statistics(
      |songs|,
      |Distinct(songs, ByArtist)|,
      |Distinct(songs, ByAlbum)|,
      |Distinct(songs, ByGenre)|,
      Categories(Grouped(songs, ByGenre)),
      Categories(Grouped(songs, ByArtist)),
      Grouped(songs, ByAlbum))
  }

  /** `getStatistics`: the sub-queries run one after another, and the first
      error the store raises (`fault`) aborts the whole computation. The
      error is rethrown wrapped, its string form interpolated into the new
      message. */
  function GetStatistics(songs: seq<StoredSong>, fault: Option<StoreError>): (r: Result<Statistics, string>)
    ensures r.Failure? <==> fault.Some?
    ensures r.Failure? ==> r.error == "Failed to get statistics: " + ErrorText(fault.value)
    ensures r.Success? ==> r.value == ComputeStatistics(songs)
  {
    if fault.Some? then Failure("Failed to get statistics: " + ErrorText(fault.value))
    else Success(ComputeStatistics(songs))
  }

  /** A group-by-count list in `{ _id, count }` form is exact for field `f`. */
  ghost predicate ExactCategories(cs: seq<SongsByCategory>, songs: seq<StoredSong>, f: GroupField) {
    && |cs| == |Distinct(songs, f)|
    && (forall k :: k in Distinct(songs, f) <==> Lists(cs, k))
    && (forall i, j :: 0 <= i < j < |cs| ==> cs[i].id != cs[j].id)
    && (forall i :: 0 <= i < |cs| ==> cs[i].count == CountOf(songs, f, cs[i].id))
    && (forall i, j :: 0 <= i < j < |cs| ==> cs[i].count >= cs[j].count)
    && CategoryTotal(cs) == |songs|
  }

  /** Some entry of `cs` has key `k`. */
  predicate Lists(cs: seq<SongsByCategory>, k: string) {
    exists i :: 0 <= i < |cs| && cs[i].id == k
  }

  lemma {:induction false} CategoriesKeys(gs: seq<Group>)
    ensures forall k :: k in KeySet(gs) <==> Lists(Categories(gs), k)
  {
    var cs := Categories(gs);
    forall k ensures k in KeySet(gs) <==> Lists(cs, k) {
      if k in KeySet(gs) {
        var g :| g in gs && g.id == k;
        var i :| 0 <= i < |gs| && gs[i] == g;
        assert cs[i].id == k;
      }
      if exists i :: 0 <= i < |cs| && cs[i].id == k {
        var i :| 0 <= i < |cs| && cs[i].id == k;
        assert gs[i] in gs;
      }
    }
  }

  lemma {:induction false} CategoriesCounts(gs: seq<Group>, songs: seq<StoredSong>, f: GroupField)
    requires GroupsAgree(gs, songs, f)
    ensures forall i :: 0 <= i < |Categories(gs)| ==> Categories(gs)[i].count == CountOf(songs, f, Categories(gs)[i].id)
  {
    var cs := Categories(gs);
    forall i | 0 <= i < |cs| ensures cs[i].count == CountOf(songs, f, cs[i].id) {
      assert gs[i] in gs;
    }
  }

  lemma {:induction false} CategoriesExact(songs: seq<StoredSong>, f: GroupField)
    ensures ExactCategories(Categories(Grouped(songs, f)), songs, f)
  {
    var gs := Grouped(songs, f);
    GroupedExact(songs, f);
    CategoryTotalMatches(gs);
    CategoriesKeys(gs);
    CategoriesCounts(gs, songs, f);
  }

  /** songsByGenre: one entry per genre, exact counts summing to totalSongs,
      largest first. */
  lemma SongsByGenreExact(songs: seq<StoredSong>)
    ensures ExactCategories(ComputeStatistics(songs).songsByGenre, songs, ByGenre)
  {
    CategoriesExact(songs, ByGenre);
  }

  /** songsByArtist: one entry per artist, exact counts summing to
      totalSongs, largest first. */
  lemma SongsByArtistExact(songs: seq<StoredSong>)
    ensures ExactCategories(ComputeStatistics(songs).songsByArtist, songs, ByArtist)
  {
    CategoriesExact(songs, ByArtist);
  }

  /** songsByAlbum: one entry per album, exact counts summing to totalSongs,
      largest first, each carrying the artist of the album's first song in
      collection order. */
  lemma {:induction false} SongsByAlbumExact(songs: seq<StoredSong>)
    ensures var albums := ComputeStatistics(songs).songsByAlbum;
      && KeySet(albums) == Distinct(songs, ByAlbum)
      && DistinctKeys(albums)
      && SumCounts(albums) == |songs|
      && Sorting.SortedDesc(albums, GroupCount)
      && forall g :: g in albums ==>
           && g.count == CountOf(songs, ByAlbum, g.id)
           && exists i :: 0 <= i < |songs| && songs[i].album == g.id && songs[i].artist == g.artist
                && forall j :: 0 <= j < i ==> songs[j].album != g.id
  {
    var albums := Grouped(songs, ByAlbum);
    GroupedExact(songs, ByAlbum);
    forall g | g in albums
      ensures exists i :: 0 <= i < |songs| && songs[i].album == g.id && songs[i].artist == g.artist
                && forall j :: 0 <= j < i ==> songs[j].album != g.id
    {
      var first := FirstWith(songs, ByAlbum, g.id);
      var i := FirstIndexOf(songs, g.id);
      FirstWithIsFirst(songs, ByAlbum, g.id, i);
    }
  }

  /** The index of the first song on album `k`; `k` must occur. */
  function FirstIndexOf(songs: seq<StoredSong>, k: string): (i: nat)
    requires exists s :: s in songs && s.album == k
    ensures i < |songs| && songs[i].album == k
    ensures forall j :: 0 <= j < i ==> songs[j].album != k
  {
    if songs[0].album == k then 0
    else
      assert exists s :: s in songs[1..] && s.album == k by {
        var s :| s in songs && s.album == k;
        assert s != songs[0];
      }
      1 + FirstIndexOf(songs[1..], k)
  }
}

=== FILE: song_slice.dfy ===
/**
 * The client-side song store (a Redux Toolkit slice): the current page of
 * songs, pagination metadata, the active filters, the selected song, busy
 * flags and the last error. Each reducer is a method of `SongState` that
 * updates the fields in place, as the slice's Immer reducers do; the pure
 * functions beside the class say what the list and the pagination metadata
 * become, and carry the properties the reducers promise.
 */
module SongSlice {
  import opened Types
  import opened FilterPatch

  /** `Math.ceil(a / b)` for a non-zero integer divisor. */
  function CeilDiv(a: int, b: int): (r: int)
    requires b != 0
    ensures b > 0 ==> (r - 1) * b < a <= r * b
    ensures b < 0 ==> r * b <= a < (r - 1) * b
    ensures b > 0 && a > 0 ==> r >= 1
    ensures b > 0 && a == 0 ==> r == 0
    ensures b < 0 && a > 0 ==> r <= 0
    decreases if b > 0 then 0 else 1
  {
    if b > 0 then
      CeilBounds(a, b);
      -((-a) / b)
    else
      CeilDiv(-a, -b)
  }

  /** Negated floor division of the negated dividend rounds up. */
  lemma CeilBounds(a: int, b: int)
    requires b > 0
    ensures var r := -((-a) / b); (r - 1) * b < a <= r * b
  {
    var q := (-a) / b;
    var m := (-a) % b;
    assert -a == q * b + m && 0 <= m < b;
    assert (-q) * b == -(q * b);
    assert (-q - 1) * b == -(q * b) - b;
  }

  function Max(a: int, b: int): int {
    if a >= b then a else b
  }

  /** The list after `createSongSuccess`: the new song first, then the old
      list, with the last entry dropped when pagination is known, its limit
      is truthy and the list outgrew it. */
  function NewestFirst(songs: seq<Song>, song: Song, pagination: Option<PaginationMeta>): (r: seq<Song>)
    ensures |r| == |songs| + 1 || |r| == |songs|
    ensures r == ([song] + songs)[..|r|]
    ensures songs != [] || pagination.None? || pagination.value.limit >= 0 ==> |r| >= 1 && r[0] == song
    ensures |r| == |songs| <==>
      pagination.Some? && pagination.value.limit != 0 && |songs| + 1 > pagination.value.limit
    ensures pagination.Some? && pagination.value.limit > 0 && |songs| <= pagination.value.limit ==>
      |r| <= pagination.value.limit
  {
    var grown := [song] + songs;
    if pagination.Some? && pagination.value.limit != 0 && |grown| > pagination.value.limit then
      grown[..|grown| - 1]
    else
      grown
  }

  /** The pagination metadata after `createSongSuccess`. */
  function AfterCreate(p: PaginationMeta): (r: PaginationMeta)
    ensures r.total == p.total + 1
    ensures r.page == p.page && r.limit == p.limit && r.sortBy == p.sortBy && r.sortOrder == p.sortOrder
    ensures p.limit > 0 ==> (r.totalPages - 1) * p.limit < r.total <= r.totalPages * p.limit
    ensures p.limit > 0 && p.total >= 0 ==> r.totalPages >= 1
    ensures p.limit == 0 ==> r.totalPages == 1 && !r.hasNextPage
    ensures p.limit != 0 ==> (r.hasNextPage <==> r.page < r.totalPages)
    ensures r.hasPrevPage <==> r.page > 1
  {
    var total := p.total + 1;
    if p.limit != 0 then
      var totalPages := CeilDiv(total, p.limit);
      p.(total := total, totalPages := totalPages, hasNextPage := p.page < totalPages, hasPrevPage := p.page > 1)
    else
      p.(total := total, totalPages := 1, hasNextPage := false, hasPrevPage := p.page > 1)
  }

  /** `findIndex` by identifier (strict equality on the optional `_id`). */
  function FindIndexById(songs: seq<Song>, id: Option<string>): (r: int)
    ensures -1 <= r < |songs|
    ensures r == -1 <==> forall i :: 0 <= i < |songs| ==> songs[i].id != id
    ensures r >= 0 ==> songs[r].id == id && forall i :: 0 <= i < r ==> songs[i].id != id
  {
    if songs == [] then -1
    else if songs[0].id == id then 0
    else
      var j := FindIndexById(songs[1..], id);
      if j == -1 then -1 else j + 1
  }

  /** The list after `updateSongSuccess`: the first entry with the same
      identifier is replaced, everything else stays. */
  function ReplaceById(songs: seq<Song>, song: Song): (r: seq<Song>)
    ensures |r| == |songs|
    ensures (forall i :: 0 <= i < |songs| ==> songs[i].id != song.id) ==> r == songs
    ensures forall i :: 0 <= i < |songs| ==>
      r[i] == (if songs[i].id == song.id && (forall j :: 0 <= j < i ==> songs[j].id != song.id) then song else songs[i])
  {
    var index := FindIndexById(songs, song.id);
    if index == -1 then songs else songs[index := song]
  }

  /** `songs.filter((song) => song._id !== id)`. */
  function WithoutId(songs: seq<Song>, id: string): (r: seq<Song>)
    ensures |r| <= |songs|
    ensures forall s :: s in r <==> s in songs && s.id != Some(id)
  {
    if songs == [] then []
    else if songs[0].id == Some(id) then WithoutId(songs[1..], id)
    else [songs[0]] + WithoutId(songs[1..], id)
  }

  /** Filtering distributes over concatenation, so the entries that remain
      keep their original order. */
  lemma {:induction false} WithoutIdAppend(a: seq<Song>, b: seq<Song>, id: string)
    ensures WithoutId(a + b, id) == WithoutId(a, id) + WithoutId(b, id)
  {
    if a == [] {
      assert a + b == b;
    } else {
      assert (a + b)[1..] == a[1..] + b;
      WithoutIdAppend(a[1..], b, id);
    }
  }

  /** A list in which no entry has the identifier is left exactly as it was. */
  lemma {:induction false} WithoutIdAbsent(songs: seq<Song>, id: string)
    requires forall i :: 0 <= i < |songs| ==> songs[i].id != Some(id)
    ensures WithoutId(songs, id) == songs
  {
    if songs != [] {
      WithoutIdAbsent(songs[1..], id);
    }
  }

  /** The pagination metadata after `deleteSongSuccess`, given how many songs
      remain in the list. */
  function AfterDelete(p: PaginationMeta, remaining: nat): (r: PaginationMeta)
    ensures r.total == Max(p.total - 1, 0)
    ensures r.page == (if r.total == 0 then 1 else if remaining == 0 && p.page > 1 then p.page - 1 else p.page)
    ensures r.limit == p.limit && r.sortBy == p.sortBy && r.sortOrder == p.sortOrder
    ensures r.totalPages >= 1
    ensures r.total == 0 || p.limit <= 0 ==> r.totalPages == 1
    ensures p.limit == 0 ==> !r.hasNextPage
    ensures r.hasNextPage ==> r.total > 0 && r.page < r.totalPages
    ensures r.hasPrevPage <==> r.page > 1
    ensures p.limit > 0 && r.total > 0 ==> (r.totalPages - 1) * p.limit < r.total <= r.totalPages * p.limit
    ensures p.limit > 0 ==> (r.hasNextPage <==> r.page < r.totalPages && r.total > 0)
  {
    var total := Max(p.total - 1, 0);
    var nextPage := if total == 0 then 1 else if remaining == 0 && p.page > 1 then p.page - 1 else p.page;
    var totalPages := if p.limit != 0 then (if total == 0 then 1 else Max(CeilDiv(total, p.limit), 1)) else 1;
    var hasNextPage := p.limit != 0 && nextPage < totalPages && total > 0;
    p.(total := total, page := nextPage, totalPages := totalPages, hasNextPage := hasNextPage, hasPrevPage := nextPage > 1)
  }

  /** The filters after `fetchSongsSuccess`: page and limit come from the
      server's metadata, and so do the sort field and direction when they
      are truthy; every other key is kept as it was. */
  function FiltersAfterFetch(f: map<FilterKey, Value>, meta: PaginationMeta): (r: map<FilterKey, Value>)
    ensures Page in r && r[Page] == Number(meta.page)
    ensures Limit in r && r[Limit] == Number(meta.limit)
    ensures SortBy in r <==> SortBy in f || IsTruthy(meta.sortBy)
    ensures SortBy in r ==> r[SortBy] == if IsTruthy(meta.sortBy) then Text(meta.sortBy.value) else f[SortBy]
    ensures SortOrder in r <==> SortOrder in f || IsTruthy(meta.sortOrder)
    ensures SortOrder in r ==> r[SortOrder] == if IsTruthy(meta.sortOrder) then Text(meta.sortOrder.value) else f[SortOrder]
    ensures forall k :: k !in {Page, Limit, SortBy, SortOrder} ==> Read(r, k) == Read(f, k)
  {
    var paged := f[Page := Number(meta.page)][Limit := Number(meta.limit)];
    var sorted := if IsTruthy(meta.sortBy) then paged[SortBy := Text(meta.sortBy.value)] else paged;
    if IsTruthy(meta.sortOrder) then sorted[SortOrder := Text(meta.sortOrder.value)] else sorted
  }

  /** The metadata update inside `deleteSongSuccess`, field by field. */
  method RecountAfterDelete(pagination: PaginationMeta, remaining: nat) returns (p: PaginationMeta)
    ensures p == AfterDelete(pagination, remaining)
  {
    p := pagination;
    var limit := p.limit;
    var previousPage := p.page;
    var total := Max(p.total - 1, 0);
    p := p.(total := total);

    var nextPage := previousPage;
    if total == 0 {
      nextPage := 1;
    } else if remaining == 0 && previousPage > 1 {
      nextPage := previousPage - 1;
    }
    p := p.(page := nextPage);

    if limit != 0 {
      var totalPages := if total == 0 then 1 else Max(CeilDiv(total, limit), 1);
      p := p.(totalPages := totalPages);
      p := p.(hasNextPage := nextPage < totalPages && total > 0);
      p := p.(hasPrevPage := nextPage > 1);
    } else {
      p := p.(totalPages := 1);
      p := p.(hasNextPage := false);
      p := p.(hasPrevPage := nextPage > 1);
    }
  }

  /** Every field of the slice state at once, for "nothing else changes". */
  datatype Snapshot = Snapshot(
    songs: seq<Song>,
    statistics: Option<Statistics>,
    selectedSong: Option<Song>,
    filters: map<FilterKey, Value>,
    pagination: Option<PaginationMeta>,
    isFetching: bool,
    isMutating: bool,
    error: Option<string>)

  /** The filters of a fetch request; `silent` suppresses the busy flag. */
  datatype FetchSongsPayload = FetchSongsPayload(filters: map<FilterKey, Value>, silent: Option<bool>)

  /** The filters the store starts with. */
  const InitialFilters: map<FilterKey, Value> :=
    map[Page := Number(1), Limit := Number(10), SortBy := Text("createdAt"), SortOrder := Text("desc")]

  class SongState {
    var songs: seq<Song>
    var statistics: Option<Statistics>
    var selectedSong: Option<Song>
    var filters: map<FilterKey, Value>
    var pagination: Option<PaginationMeta>
    var isFetching: bool
    var isMutating: bool
    var error: Option<string>

    function State(): Snapshot
      reads this
    {
      Snapshot(songs, statistics, selectedSong, filters, pagination, isFetching, isMutating, error)
    }

    /** The initial state of the slice. */
    constructor ()
      ensures State() == Snapshot([], None, None, InitialFilters, None, false, false, None)
    {
      songs := [];
      statistics := None;
      selectedSong := None;
      filters := InitialFilters;
      pagination := None;
      isFetching := false;
      isMutating := false;
      error := None;
    }

    /** The loop shared by `setFilters` and `fetchSongsRequest`: each entry of
        the patch deletes or overwrites its key in `filters`. */
    method MergeFilters(patch: map<FilterKey, Value>)
      modifies this`filters
      ensures filters == Merged(old(filters), patch)
    {
      var pending := patch.Keys;
      while pending != {}
        invariant pending <= patch.Keys
        invariant filters == Merged(old(filters), patch - pending)
        decreases pending
      {
        var key :| key in pending;
        var value := patch[key];
        if value == Undefined || value == Null {
          filters := filters - {key};
        } else {
          filters := filters[key := value];
        }
        MergedStep(old(filters), patch, pending, key);
        pending := pending - {key};
      }
      assert patch - pending == patch;
    }

    method FetchSongsRequest(payload: Option<FetchSongsPayload>)
      modifies this
      ensures isFetching == !(payload.Some? && payload.value.silent == Some(true))
      ensures error == None
      ensures filters == if payload.Some? then Merged(old(filters), payload.value.filters) else old(filters)
      ensures State() == old(State()).(isFetching := isFetching, error := None, filters := filters)
    {
      var silent := if payload.Some? && payload.value.silent.Some? then payload.value.silent.value else false;
      isFetching := !silent;
      error := None;
      if payload.Some? {
        MergeFilters(payload.value.filters);
      }
    }

    method FetchSongsSuccess(payload: PaginatedSongs)
      modifies this
      ensures songs == payload.data && pagination == Some(payload.pagination) && !isFetching
      ensures filters == FiltersAfterFetch(old(filters), payload.pagination)
      ensures State() == old(State()).(isFetching := false, songs := payload.data,
        pagination := Some(payload.pagination), filters := filters)
    {
      isFetching := false;
      songs := payload.data;
      pagination := Some(payload.pagination);
      filters := filters[Page := Number(payload.pagination.page)];
      filters := filters[Limit := Number(payload.pagination.limit)];
      if IsTruthy(payload.pagination.sortBy) {
        filters := filters[SortBy := Text(payload.pagination.sortBy.value)];
      }
      if IsTruthy(payload.pagination.sortOrder) {
        filters := filters[SortOrder := Text(payload.pagination.sortOrder.value)];
      }
    }

    method FetchSongsFailure(message: string)
      modifies this
      ensures State() == old(State()).(isFetching := false, error := Some(message))
    {
      isFetching := false;
      error := Some(message);
    }

    method CreateSongRequest(data: SongFormData)
      modifies this
      ensures State() == old(State()).(isMutating := true, error := None)
    {
      isMutating := true;
      error := None;
    }

    method CreateSongSuccess(song: Song)
      modifies this
      ensures songs == NewestFirst(old(songs), song, old(pagination))
      ensures old(songs) != [] || old(pagination).None? || old(pagination).value.limit >= 0 ==> songs[0] == song
      ensures old(pagination).Some? && old(pagination).value.limit > 0 && |old(songs)| <= old(pagination).value.limit ==>
        |songs| <= old(pagination).value.limit
      ensures pagination == if old(pagination).Some? then Some(AfterCreate(old(pagination).value)) else None
      ensures State() == old(State()).(isMutating := false, songs := songs, pagination := pagination)
    {
      isMutating := false;
      songs := [song] + songs;

      if pagination.Some? {
        var limit, page := pagination.value.limit, pagination.value.page;
        if limit != 0 && |songs| > limit {
          songs := songs[..|songs| - 1];
        }

        var p := pagination.value;
        var total := p.total + 1;
        p := p.(total := total);
        if limit != 0 {
          p := p.(totalPages := CeilDiv(total, limit));
          p := p.(hasNextPage := page < p.totalPages);
        } else {
          p := p.(totalPages := 1);
          p := p.(hasNextPage := false);
        }
        p := p.(hasPrevPage := page > 1);
        pagination := Some(p);
      }
    }

    method CreateSongFailure(message: string)
      modifies this
      ensures State() == old(State()).(isMutating := false, error := Some(message))
    {
      isMutating := false;
      error := Some(message);
    }

    method UpdateSongRequest(id: string, data: SongFormData)
      modifies this
      ensures State() == old(State()).(isMutating := true, error := None)
    {
      isMutating := true;
      error := None;
    }

    method UpdateSongSuccess(song: Song)
      modifies this
      ensures songs == ReplaceById(old(songs), song)
      ensures selectedSong == None
      ensures State() == old(State()).(isMutating := false, songs := songs, selectedSong := None)
    {
      isMutating := false;
      var index := FindIndexById(songs, song.id);
      if index != -1 {
        songs := songs[index := song];
      }
      selectedSong := None;
    }

    method UpdateSongFailure(message: string)
      modifies this
      ensures State() == old(State()).(isMutating := false, error := Some(message))
    {
      isMutating := false;
      error := Some(message);
    }

    method DeleteSongRequest(id: string)
      modifies this
      ensures State() == old(State()).(isMutating := true, error := None)
    {
      isMutating := true;
      error := None;
    }

    method DeleteSongSuccess(id: string)
      modifies this
      ensures songs == WithoutId(old(songs), id)
      ensures pagination == if old(pagination).Some? then Some(AfterDelete(old(pagination).value, |songs|)) else None
      ensures pagination.Some? ==> Read(filters, Page) == Number(pagination.value.page)
      ensures filters == if old(pagination).Some? then old(filters)[Page := Number(pagination.value.page)] else old(filters)
      ensures State() == old(State()).(isMutating := false, songs := songs, pagination := pagination, filters := filters)
    {
      isMutating := false;
      songs := WithoutId(songs, id);

      if pagination.Some? {
        var p := RecountAfterDelete(pagination.value, |songs|);
        filters := filters[Page := Number(p.page)];
        pagination := Some(p);
      }
    }

    method DeleteSongFailure(message: string)
      modifies this
      ensures State() == old(State()).(isMutating := false, error := Some(message))
    {
      isMutating := false;
      error := Some(message);
    }

    method FetchStatisticsRequest()
      modifies this
      ensures State() == old(State()).(error := None)
    {
      error := None;
    }

    method FetchStatisticsSuccess(stats: Statistics)
      modifies this
      ensures State() == old(State()).(statistics := Some(stats))
    {
      statistics := Some(stats);
    }

    method FetchStatisticsFailure(message: string)
      modifies this
      ensures State() == old(State()).(error := Some(message))
    {
      error := Some(message);
    }

    method SelectSong(song: Option<Song>)
      modifies this
      ensures State() == old(State()).(selectedSong := song)
    {
      selectedSong := song;
    }

    method SetFilters(patch: map<FilterKey, Value>)
      modifies this
      ensures State() == old(State()).(filters := Merged(old(filters), patch))
    {
      MergeFilters(patch);
    }

    method ClearError()
      modifies this
      ensures State() == old(State()).(error := None)
    {
      error := None;
    }
  }
}

=== FILE: sorting.dfy ===
/**
 * A stable sort by an integer key, largest key first. It stands for the
 * document store's `$sort: { field: -1 }`, whose order among equal keys is
 * not specified; the contracts here promise only the ordering and that the
 * result is a permutation of the input.
 */
module Sorting {

  predicate SortedDesc<T>(s: seq<T>, key: T -> int) {
    forall i, j :: 0 <= i < j < |s| ==> key(s[i]) >= key(s[j])
  }

  /** Inserts `x` before the first element whose key is not larger. */
  function Insert<T(==)>(x: T, s: seq<T>, key: T -> int): (r: seq<T>)
    requires SortedDesc(s, key)
    ensures SortedDesc(r, key)
    ensures multiset(r) == multiset(s) + multiset{x}
    ensures |r| == |s| + 1
  {
    if s == [] || key(x) >= key(s[0]) then
      [x] + s
    else
      var rest := Insert(x, s[1..], key);
      HeadBoundsInsert(x, s, rest, key);
      ConsSorted(s[0], rest, key);
      assert s == [s[0]] + s[1..];
      [s[0]] + rest
  }

  /** An element whose key is at least every key of a sorted list can go
      in front of it. */
  lemma ConsSorted<T>(h: T, s: seq<T>, key: T -> int)
    requires SortedDesc(s, key)
    requires forall y :: y in s ==> key(h) >= key(y)
    ensures SortedDesc([h] + s, key)
  {
    var r := [h] + s;
    forall i, j | 0 <= i < j < |r| ensures key(r[i]) >= key(r[j]) {
      assert r[j] == s[j - 1];
      if i > 0 {
        assert r[i] == s[i - 1];
      } else {
        assert s[j - 1] in s;
      }
    }
  }

  /** The head of a sorted list bounds every key of the list built by
      inserting a smaller element into its tail. */
  lemma HeadBoundsInsert<T>(x: T, s: seq<T>, rest: seq<T>, key: T -> int)
    requires SortedDesc(s, key) && s != [] && key(x) < key(s[0])
    requires multiset(rest) == multiset(s[1..]) + multiset{x}
    ensures forall y :: y in rest ==> key(s[0]) >= key(y)
  {
    forall y | y in rest ensures key(s[0]) >= key(y) {
      assert y in multiset(rest);
      if y != x {
        assert y in multiset(s[1..]);
        var k :| 0 <= k < |s[1..]| && s[1..][k] == y;
        assert s[k + 1] == y;
      }
    }
  }

  function SortDesc<T(==)>(s: seq<T>, key: T -> int): (r: seq<T>)
    ensures SortedDesc(r, key)
    ensures multiset(r) == multiset(s)
    ensures |r| == |s|
  {
    if s == [] then []
    else
      assert s == [s[0]] + s[1..];
      Insert(s[0], SortDesc(s[1..], key), key)
  }

  /** A permutation has exactly the same elements. */
  lemma SameElements<T>(a: seq<T>, b: seq<T>)
    requires multiset(a) == multiset(b)
    ensures forall x :: x in a <==> x in b
  {
    forall x ensures x in a <==> x in b {
      assert x in a <==> x in multiset(a);
      assert x in b <==> x in multiset(b);
    }
  }
}

=== FILE: types.dfy ===
/**
 * The shared data model of the song catalogue: the records exchanged between
 * the browser client and the server (packages/types/index.d.ts), plus the
 * small wrappers the rest of the model uses for optional values, failures and
 * the loosely typed JavaScript values that flow through filter objects.
 */
module Types {

  datatype Option<+T> = None | Some(value: T)

  datatype Result<+T, +E> = Success(value: T) | Failure(error: E)

  /** A JavaScript value as it appears in a filter object or URL-state patch.
      Numbers are modelled as integers. */
  datatype Value = Undefined | Null | Text(s: string) | Number(n: int)

  /** The keys of a `SongFilters` object (and of the URL query state). */
  datatype FilterKey = Search | Artist | Album | Genre | SortBy | SortOrder | Page | Limit

  /** A song as the client sees it: the identifier and the timestamps are
      optional because a form value has none yet. */
  datatype Song = Song(
    id: Option<string>,
    title: string,
    artist: string,
    album: string,
    genre: string,
    createdAt: Option<string>,
    updatedAt: Option<string>)

  /** The four fields a user types into the song form. */
  datatype SongFormData = SongFormData(title: string, artist: string, album: string, genre: string)

  datatype PaginationMeta = PaginationMeta(
    total: int,
    page: int,
    limit: int,
    totalPages: int,
    hasNextPage: bool,
    hasPrevPage: bool,
    sortBy: Option<string>,
    sortOrder: Option<string>)

  datatype PaginatedSongs = PaginatedSongs(data: seq<Song>, pagination: PaginationMeta)

  /** One group of a group-by-count list; `id` is the grouped value. */
  datatype SongsByCategory = SongsByCategory(id: string, count: int)

  /** One album group, with the artist of a representative song. */
  datatype SongsByAlbum = SongsByAlbum(id: string, count: int, artist: string)

  datatype Statistics = Statistics(
    totalSongs: int,
    totalArtists: int,
    totalAlbums: int,
    totalGenres: int,
    songsByGenre: seq<SongsByCategory>,
    songsByArtist: seq<SongsByCategory>,
    songsByAlbum: seq<SongsByAlbum>)

  /** The sort fields a list request may name. */
  const SortFields: set<string> := {"title", "artist", "album", "genre", "createdAt", "updatedAt"}

  /** The sort directions a list request may name. */
  const SortOrders: set<string> := {"asc", "desc"}

  /** An error raised by the document store: its `name` (such as
      `MongoNetworkError` or `CastError`) and its `message`. */
  datatype StoreError = StoreError(name: string, message: string)

  /** The string form of an error, `Error.prototype.toString`, which a
      template literal uses: name and message joined by ": ", or whichever of
      the two is non-empty. */
  function ErrorText(e: StoreError): (r: string)
    ensures e.name == "" ==> r == e.message
    ensures e.name != "" && e.message == "" ==> r == e.name
    ensures e.name != "" && e.message != "" ==>
      |r| == |e.name| + 2 + |e.message| && r[..|e.name|] == e.name && r[|e.name|..|e.name| + 2] == ": "
      && r[|e.name| + 2..] == e.message
  {
    if e.name == "" then e.message
    else if e.message == "" then e.name
    else e.name + ": " + e.message
  }

  /** JavaScript truthiness of an optional string: present and non-empty. */
  predicate IsTruthy(s: Option<string>) {
    s.Some? && s.value != ""
  }
}
